=== FILE: README.md ===
# Multi-tenant notes backend in Dafny

A model of the Express backend of a multi-tenant notes service. Organizations
(tenants) each have a slug and a plan. A free tenant may hold three notes; a
pro tenant has no limit. Users belong to one tenant and are either admins or
members. Notes belong to one tenant and one author.

The model covers:
- the three data-access classes (`Note`, `Tenant`, `User`);
- the tenant-context and request-validation middleware;
- the four routers: notes, tenants, auth and users.

The model is pure Dafny. Each table is a sequence of rows. A SQL query becomes
a function over those rows:
- `rows[0]` is the first matching row;
- `UPDATE` and `DELETE` touch every matching row;
- `COUNT(*)` counts the matching rows.

A route takes the store and the authenticated caller. It returns its result
(or its failure) together with the store it leaves behind. Failures keep the
source's distinctions:
- `Thrown`: an application error class, mapped to 400/401/403/404/409;
- `Replied`: a status written directly by the handler or middleware;
- `RoleRejected`: the admin-only guard;
- `Crashed`: a field read on a missing row, which ends in a 500.

Modules follow the source files:
- `Domain`: the records and the failure taxonomy.
- `Text`: JavaScript `trim`, `toLowerCase` and UTF-16 `length`.
- `NoteStore`, `TenantStore`, `UserStore`: the models.
- `Database`: the whole store.
- `Validation` and `TenantContext`: the middleware.
- `NoteRoutes`, `TenantRoutes`, `AuthRoutes`, `UserRoutes`: the routers.
- `Invariants`: runs of writing requests.

Some outside pieces are function parameters:
- the password hasher (`hash`);
- the password comparison (`verify`);
- the clock (`now`).

Row ids are natural numbers drawn from a `nextId` counter in each table; the
database uses UUIDs.

## Model

| member | source | states |
|---|---|---|
| Text.Trim | backend/src/routes/notes.js:30-31 | `trim` leaves no whitespace at either end, never lengthens, and yields the empty string exactly for an all-whitespace input |
| Text.TrimIsInfix | backend/src/routes/notes.js:30-31 | what `trim` keeps is a contiguous piece of the input and everything cut away on both sides is whitespace |
| Text.TrimIdempotent | backend/src/routes/auth.js:14 | trimming twice is trimming once |
| Text.AsciiLower | backend/src/routes/auth.js:14 | lower-casing keeps the length, turns each ASCII capital into its own small letter (code point plus 32) and moves no other character |
| Text.Utf16Length | backend/src/middleware/validation.js:32 | `length` counts UTF-16 code units: between the number of characters and twice that, equal to it inside the Basic Multilingual Plane |
| Validation.ValidateNote | backend/src/middleware/validation.js:21-45 | a note body passes exactly when both fields are present, neither is blank and the raw lengths are at most 255 and 10000; otherwise the first failing check in source order names the error |
| Text.Utf16LengthAppend | backend/src/middleware/validation.js:32 | UTF-16 length adds up over concatenation |
| Validation.AcceptedNoteFitsColumns | backend/src/routes/notes.js:27-32 | the trimmed title and content stored from an accepted body are non-empty and within the 255 and 10000 bounds |
| Validation.ValidateLogin | backend/src/middleware/validation.js:3-19 | a login body passes exactly when both fields are non-empty, the e-mail has an '@' and the password has at least six code units; each error message is tied to its own condition |
| Validation.PatternByPosition | backend/src/middleware/validation.js:50 | the UUID pattern, group by group, is the same as a per-position character class over 36 characters |
| Validation.ValidateUuid | backend/src/middleware/validation.js:47-58 | the character-by-character check accepts exactly the strings matching the UUID pattern and otherwise reports "Invalid <param> format" |
| Validation.UuidPatternIgnoresCase | backend/src/middleware/validation.js:50 | the pattern is case-insensitive: a string matches exactly when its lower-cased form does |
| TenantContext.ExtractTenant | backend/src/middleware/tenant.js:3-27 | 404 exactly for a given slug no tenant has; a given slug decides the tenant; without a slug the caller's own tenant is the context when it exists, and otherwise there is none |
| TenantContext.PathSlugWins | backend/src/middleware/tenant.js:5 | a non-empty path slug makes the header irrelevant |
| TenantContext.SlugOverridesCaller | backend/src/middleware/tenant.js:15-21 | with a slug, the outcome does not depend on who the caller is |
| TenantContext.RequireTenant | backend/src/middleware/tenant.js:29-34 | a 400 exactly when there is no tenant context, and otherwise that tenant |
| NoteStore.ReadScope | backend/src/models/Note.js:8-28 | a read sees the whole tenant only for an admin called without a user id; otherwise only notes by the given user, and none when no user id is given |
| NoteStore.WriteScope | backend/src/models/Note.js:68-86 | a write by any admin reaches the whole tenant; a member reaches only their own notes |
| NoteStore.SortNewestFirst | backend/src/models/Note.js:15 | the list is ordered by creation time, newest first, and is a permutation of its input |
| NoteStore.FindByTenant | backend/src/models/Note.js:5-32 | the listing is newest first and stays inside the tenant; a note appears exactly when the read scope admits it and its author row exists |
| NoteStore.FindByTenantBranches | backend/src/models/Note.js:8-28 | in the terms of the two SQL branches: an admin without a user id lists all the tenant's notes, and any other call lists the notes of the tenant written by that user |
| NoteStore.FindById | backend/src/models/Note.js:35-50 | a note is returned only if its id and tenant match and, off the admin branch, its author does; nothing is returned exactly when no row qualifies |
| NoteStore.Create | backend/src/models/Note.js:52-61 | the row is appended with the given tenant, author, text and current time, under an id no existing row has, and the primary-key invariant holds after |
| NoteStore.CreateThenFind | backend/src/models/Note.js:35-61 | the author, and an admin of the tenant, read back exactly the note just created |
| NoteStore.Update | backend/src/models/Note.js:64-90 | each row matched by id and write scope gets the new text and `updated_at` and keeps its id, tenant, author and creation time; every other row is untouched; nothing changes when nothing matches |
| NoteStore.UpdateTouchesOneRow | backend/src/models/Note.js:64-90 | under unique ids, an update rewrites at most one row |
| NoteStore.Delete | backend/src/models/Note.js:93-108 | exactly the matched rows disappear and the first is returned; nothing changes when nothing matches; with unique ids exactly one row goes; no tenant's count rises |
| NoteStore.RemoveSplitsRows | backend/src/models/Note.js:98-107 | the kept rows and the deleted rows together are the table, row for row |
| NoteStore.AtMostOneTarget | backend/src/models/Note.js:98-103 | with unique ids, an id matches at most one row in any scope |
| NoteStore.OnlyRowWithItsId | backend/src/models/Note.js:35-50 | under the primary-key invariant, a note is the only row carrying its id |
| NoteStore.CountByTenant | backend/src/models/Note.js:110-114 | the count equals the number of the tenant's rows |
| NoteStore.CountAppend | backend/src/models/Note.js:110-114 | inserting a note adds one to its own tenant's count and nothing to any other |
| NoteStore.CountKeepsTenants | backend/src/models/Note.js:110-114 | rewriting rows in place without moving them between tenants keeps every count |
| NoteStore.CountRemove | backend/src/models/Note.js:110-114 | deleting rows never raises a count |
| TenantStore.FindBySlug | backend/src/models/Tenant.js:4-8 | a returned tenant is in the table with that slug; nothing is returned exactly when no tenant has the slug |
| TenantStore.FindById | backend/src/models/Tenant.js:10-14 | a returned tenant is in the table with that id; nothing is returned exactly when no tenant has the id |
| TenantStore.UpdateSubscription | backend/src/models/Tenant.js:16-25 | rows with the id get the new plan and time and all others stay; a row comes back exactly when the id exists, carrying the new plan |
| TenantStore.GetNotesCount | backend/src/models/Tenant.js:27-31 | the same count as the note model's per-tenant count |
| UserStore.FindByEmail | backend/src/models/User.js:5-9 | a returned user is in the table with exactly that e-mail; nothing is returned exactly when no user has it |
| UserStore.Create | backend/src/models/User.js:17-29 | the user is appended with the tenant, e-mail, hashed password and role (member by default) under a fresh id; the returned row is the stored one without its hash |
| NoteRoutes.Gate | backend/src/routes/notes.js:11-13 | the tenant middleware on the notes router fails exactly for an unknown header slug, or, with no header slug, for a caller whose tenant is gone; it never reports an authorization error |
| NoteRoutes.CreateNote | backend/src/routes/notes.js:16-39 | a request the tenant middleware rejects gets the middleware's 404 or 400, and an invalid body gets validateNote's own 400 message, both with nothing inserted; a quota conflict exactly when the tenant is free and already holds three notes; past the middleware and validation, a pro tenant, or a free tenant below three notes, always gets its note, and a caller whose own tenant row is missing gets a 500 with nothing inserted; a created note is the caller's, in the caller's tenant, trimmed and appended; a failure changes nothing |
| NoteRoutes.QuotaIsPerTenant | backend/src/routes/notes.js:19-25 | admin and member of one tenant meet the same cap |
| NoteRoutes.ListNotes | backend/src/routes/notes.js:42-63 | a request the tenant middleware rejects gets the middleware's error, and a caller whose own tenant row is missing gets a 500; otherwise the list is exactly what the note model's findByTenant returns, each row carrying its author's e-mail from the join, newest first, inside the caller's tenant, only the caller's own notes for a member, and complete for the scope; `count` is its length, the tenant name and plan are the caller's tenant's, the limit is 3 or null by plan, `viewing` follows the role |
| NoteRoutes.GetNote | backend/src/routes/notes.js:66-84 | a request the tenant middleware rejects fails with the middleware's error; once the middleware passes, a note comes back exactly when the caller may touch it (same id, same tenant, and admin or author); otherwise NotFound |
| NoteRoutes.UpdateNote | backend/src/routes/notes.js:87-111 | a request the tenant middleware rejects fails with the middleware's error and changes nothing; an invalid body gets validateNote's own 400 message and changes nothing; once both pass, every row the caller may touch gets the trimmed title and content and the new updated_at and keeps its id, tenant, author and created_at, and no other row changes; NotFound with the store unchanged when there is none; ids stay unique |
| NoteRoutes.DeleteNote | backend/src/routes/notes.js:114-136 | a request the tenant middleware rejects fails with the middleware's error and deletes nothing; once the middleware passes, exactly the rows the caller may touch are removed and the response names one of them; NotFound with the store unchanged when there is none |
| NoteRoutes.HeaderSlugIsIgnored | backend/src/routes/notes.js:11-13 | once the middleware lets a request through, every note handler answers the same whatever tenant slug the header names |
| NoteRoutes.ForeignNoteIsHidden | backend/src/routes/notes.js:66-136 | another tenant's note, or another member's note for a member, gets NotFound for get, update and delete, and stays as it is |
| TenantRoutes.Upgrade | backend/src/routes/tenants.js:10-41 | role, existence, ownership and already-pro checks in that order; an admin upgrading their own free tenant succeeds; only success changes anything, and then exactly the caller's tenant rows become pro with the new `updated_at`, every other field and row kept; the response carries the upgraded row's id, name and slug, the pro plan, the tenant's note count and a null limit; no plan ever goes back to free |
| TenantRoutes.UpgradeReportsSlugTenant | backend/src/routes/tenants.js:25-38 | under unique tenant ids, the upgrade response names the tenant the slug named, with that slug |
| TenantRoutes.UpgradeTwice | backend/src/routes/tenants.js:22-26 | an admin's first upgrade of their own free tenant succeeds, and a second one is the already-on-pro conflict with the store unchanged |
| TenantRoutes.Stats | backend/src/routes/tenants.js:43-71 | the same guards, and the stats come back whenever they pass; name, slug, plan and creation time are the tenant's own; the count is the tenant's notes, the limit is 3 or "unlimited" by plan, and an upgrade is offered exactly on the free plan |
| AuthRoutes.SignIn | backend/src/routes/auth.js:14-55 | the same 401 for an unknown e-mail and for a wrong password; a separate 401 for a missing tenant; a session carries the stored account's own id, tenant, e-mail and role |
| AuthRoutes.Login | backend/src/routes/auth.js:11-55 | validation errors pass through; the account is looked up by the lower-cased, trimmed e-mail; failures are 400 or 401; a success describes the account and its tenant's usage |
| AuthRoutes.UnknownAndWrongPasswordAlike | backend/src/routes/auth.js:15-22 | a failed login cannot tell an unknown e-mail from a wrong password |
| AuthRoutes.LoginSucceeds | backend/src/routes/auth.js:14-34 | a found account whose password is accepted and whose tenant exists logs in with claims copied from that account |
| AuthRoutes.LoginIgnoresCase | backend/src/routes/auth.js:14 | e-mails that differ only in ASCII letter case get the same login outcome |
| AuthRoutes.Me | backend/src/routes/auth.js:57-77 | the profile is the caller's own id, e-mail and role with their tenant's usage; a 500 exactly when the caller's tenant row is gone |
| AuthRoutes.MeAfterLogin | backend/src/routes/auth.js:29-77 | the profile read with a fresh session's claims is the profile the login returned |
| UserRoutes.Invite | backend/src/routes/users.js:10-38 | role guard, then 400 without an e-mail, then 409 for an exact duplicate, all leaving the store unchanged; otherwise a new account in the inviter's tenant with the default password hashed and the requested role or member |
| UserRoutes.MixedCaseInviteLocksOut | backend/src/routes/users.js:17-27 | an address invited with a capital letter can never log in under that address |
| UserRoutes.MixedCaseInviteExample | backend/src/routes/users.js:22-27 | concretely: "Bob@acme.test" is invited and then refused at login |
| UserRoutes.InviteNormalized | backend/src/routes/users.js:10-38 | the invite with the address lower-cased and trimmed for both the duplicate check and the stored account; otherwise the same guards and effects |
| UserRoutes.InvitedUserCanLogIn | backend/src/routes/users.js:22-27 | after the normalised invite, the new account logs in with its address and the default password, as itself and in the inviter's tenant |
| Invariants.RunPlansOnlyRise | backend/src/routes/tenants.js:22-26 | over any run of writing requests (note creates, updates and deletes, upgrades, and invites as written), no tenant goes back from pro to free, and ids and slugs never change |
| Invariants.CreateKeepsLimit | backend/src/routes/notes.js:19-32 | with unique tenant ids, creating a note never takes a free tenant above three notes |
| Invariants.UpdateKeepsCounts | backend/src/routes/notes.js:87-111 | updating a note changes no tenant's count |
| Invariants.InviteNormalizedKeepsHealthy | backend/src/routes/users.js:10-38 | the corrected invite also keeps ids unique, the free-plan cap and every plan, so the fix keeps the store invariants |
| Invariants.RunKeepsHealthy | backend/src/routes/notes.js:19-25 | over any run of note creates, updates and deletes, upgrades, and invites as written: ids stay unique in every table and no free tenant holds more than three notes |

## Left out

- Password hashing and comparison (bcrypt with 12 rounds) are the parameters `hash` and `verify`. Token signing (JWT) is not modelled: a login returns the claims the token would carry.
- The `authenticate` and `requireRole` middleware are not part of this model. The caller is an `Identity` value. The admin-only guard is the `RoleRejected` failure, a 403.
- The error-handling middleware of the application is not part of this model. Thrown errors are kept as their class and message, with the status each class maps to.
- The catch-all 500 in `extractTenant` (a database failure) is not modelled, since the store never fails.
- `Text.AsciiLower`: only ASCII letters are lower-cased. JavaScript's full Unicode case mapping is not modelled.
- SQL, the connection pool and `CURRENT_TIMESTAMP` are not modelled. Timestamps are the `now` parameter. UUID primary keys are natural numbers from a counter.
- Rows with equal `created_at` come out of the list in an order the database does not fix. `NoteStore.SortNewestFirst` fixes one such order.
- Concurrency is not modelled: each request runs alone. The count-then-insert race on the free-plan quota is not modelled.
- Request bodies whose fields are not strings (numbers, arrays) are not modelled. Neither are invite roles other than admin or member, which the database's role constraint would reject.
- Database constraints (unique e-mail, foreign keys, role check) are not modelled. `Invariants.RunKeepsHealthy` states the id uniqueness they would guarantee as an invariant instead.
- `User.findById` and `User.validatePassword` (User.js:11-15, 31-33) are not modelled separately. No route in the model calls the former; the latter is `verify`.
- `NoteRoutes.GetNote`, `NoteRoutes.UpdateNote`, `NoteRoutes.DeleteNote`: ids are natural numbers, so every `:id` is well-formed. The routes run no UUID check on `:id` (notes.js:66, 87, 114), so in the source a malformed id makes the `id = $1` comparison fail in the database, and the error handler answers the generic 500 (app.js:107-110). The model answers NotFound for every id no row has.
- `TenantRoutes.Upgrade`: the response describes the first row carrying the caller's tenant id, as `RETURNING *` reports the updated row. It is the row the slug named only under unique ids, which `TenantRoutes.UpgradeReportsSlugTenant` assumes.
- `NoteStore.Update`: the returned row is the first revised row. Which row PostgreSQL's `RETURNING` reports first when several match is left open. Under unique ids only one row matches.
- The JSON wrappers (`success`, `message`) are not modelled: only the data fields are kept.

## Findings

| source | as written | input that shows it | evidently intended | confidence | as-written member | corrected member |
|---|---|---|---|---|---|---|
| backend/src/routes/users.js:17-27 | the invite checks for duplicates and stores the e-mail exactly as given, while the login looks accounts up by the lower-cased, trimmed e-mail (auth.js:14) | an admin invites "Bob@acme.test"; a login as "Bob@acme.test" looks up "bob@acme.test", finds no account and answers 401 whatever the password | the invite normalises the address the way the login does, so an invited account can log in (e-mails are meant to be unique regardless of case) | medium, not executed | UserRoutes.MixedCaseInviteLocksOut | UserRoutes.InviteNormalized |

`UserRoutes.Invite` models the handler as written. `UserRoutes.InviteNormalized` is the corrected handler, and `UserRoutes.InvitedUserCanLogIn` proves the intended property of it. The whole-store invariants in `Invariants` run over the invite as written; `Invariants.InviteNormalizedKeepsHealthy` shows that the corrected invite keeps them too.

=== FILE: auth_routes.dfy ===
/**
 * The auth router: logging in with e-mail and password, and reading back
 * the caller's own profile. Password comparison is an outside function
 * `verify(password, hash)`; signing the token is left out, so a session
 * carries the claims the token would hold.
 */
module AuthRoutes {
  import opened Domain
  import opened Text
  import NoteStore
  import TenantStore
  import UserStore
  import Validation
  import opened Database

  const MsgBadCredentials := "Invalid email or password"
  const MsgTenantMissing := "Account tenant not found"

  /** The token payload. */
  datatype Claims = Claims(userId: Id, tenantId: Id, email: string, role: Role)

  /** The `tenant` object of the login and profile responses. */
  datatype TenantSummary = TenantSummary(
    id: Id, name: string, slug: string, plan: Plan, notesCount: nat, notesLimit: NotesLimit)

  /** The `user` object of the login and profile responses. */
  datatype Profile = Profile(id: Id, email: string, role: Role, tenant: TenantSummary)

  datatype Session = Session(claims: Claims, user: Profile)

  /** The key a login looks the account up by: the e-mail lower-cased, then trimmed. */
  function LoginKey(email: string): string {
    Trim(AsciiLower(email))
  }

  function Summarize(db: Db, t: Tenant): TenantSummary {
    TenantSummary(t.id, t.name, t.slug, t.plan, TenantStore.GetNotesCount(db.notes, t.id), NotesLimitOf(t.plan))
  }

  /** The account a validated login body names: the first with the normalised e-mail. */
  function Account(db: Db, body: Validation.LoginBody): Option<User>
    requires Validation.ValidateLogin(body).Ok?
  {
    UserStore.FindByEmail(db.users, LoginKey(body.email.value))
  }

  /** A login body that passes validation and whose account exists but rejects the password, or does not exist. */
  predicate BadCredentials(db: Db, body: Validation.LoginBody, verify: (string, string) -> bool)
    requires Validation.ValidateLogin(body).Ok?
  {
    var found := Account(db, body);
    found.None? || !verify(body.password.value, found.value.passwordHash)
  }

  /**
   * The login handler once the body has validated: look the account up,
   * compare the password, find the tenant, hand out the session. Every
   * failure is a 401, and the first two checks share one message.
   */
  function SignIn(db: Db, creds: Validation.Credentials, verify: (string, string) -> bool): (r: Result<Session>)
    ensures var found := UserStore.FindByEmail(db.users, LoginKey(creds.email));
      r == Err(Thrown(AuthenticationError, MsgBadCredentials)) <==>
        found.None? || !verify(creds.password, found.value.passwordHash)
    ensures var found := UserStore.FindByEmail(db.users, LoginKey(creds.email));
      found.Some? && verify(creds.password, found.value.passwordHash) ==>
        (r == Err(Thrown(AuthenticationError, MsgTenantMissing)) <==>
         forall t :: t in db.tenants ==> t.id != found.value.tenantId)
    ensures r.Err? ==> r.failure.Thrown? && r.failure.kind == AuthenticationError
    ensures r.Ok? ==>
      && UserStore.FindByEmail(db.users, LoginKey(creds.email)).Some?
      && var u := UserStore.FindByEmail(db.users, LoginKey(creds.email)).value;
         && u in db.users.rows && u.email == LoginKey(creds.email)
         && verify(creds.password, u.passwordHash)
         && r.value.claims == Claims(u.id, u.tenantId, u.email, u.role)
         && r.value.user.id == u.id && r.value.user.email == u.email && r.value.user.role == u.role
    ensures r.Ok? ==>
      && TenantStore.FindById(db.tenants, r.value.claims.tenantId).Some?
      && r.value.user.tenant == Summarize(db, TenantStore.FindById(db.tenants, r.value.claims.tenantId).value)
      && r.value.user.tenant.notesCount == NoteStore.CountByTenant(db.notes, r.value.claims.tenantId)
      && r.value.user.tenant.notesLimit == (if r.value.user.tenant.plan == Free then Capped(3) else NullLimit)
  {
    match UserStore.FindByEmail(db.users, LoginKey(creds.email))
    case None => Err(Thrown(AuthenticationError, MsgBadCredentials))
    case Some(user) =>
      if !verify(creds.password, user.passwordHash) then Err(Thrown(AuthenticationError, MsgBadCredentials))
      else
        match TenantStore.FindById(db.tenants, user.tenantId)
        case None => Err(Thrown(AuthenticationError, MsgTenantMissing))
        case Some(tenant) =>
          Ok(Session(Claims(user.id, user.tenantId, user.email, user.role),
                     Profile(user.id, user.email, user.role, Summarize(db, tenant))))
  }

  /**
   * POST /auth/login: `validateLogin`, then the handler. An unknown e-mail
   * and a wrong password fail with the same 401, an account whose tenant is
   * gone with another 401; a success hands out the account's own id,
   * tenant, e-mail and role, and its tenant's usage.
   */
  function Login(db: Db, body: Validation.LoginBody, verify: (string, string) -> bool): (r: Result<Session>)
    ensures Validation.ValidateLogin(body).Err? ==> r == Err(Validation.ValidateLogin(body).failure)
    ensures Validation.ValidateLogin(body).Ok? ==>
      (r == Err(Thrown(AuthenticationError, MsgBadCredentials)) <==> BadCredentials(db, body, verify))
    ensures Validation.ValidateLogin(body).Ok? && (forall u :: u in db.users.rows ==> u.email != LoginKey(body.email.value)) ==>
      r == Err(Thrown(AuthenticationError, MsgBadCredentials))
    ensures Validation.ValidateLogin(body).Ok? && !BadCredentials(db, body, verify) ==>
      (r == Err(Thrown(AuthenticationError, MsgTenantMissing)) <==>
       forall t :: t in db.tenants ==> t.id != Account(db, body).value.tenantId)
    ensures r.Ok? ==>
      && Validation.ValidateLogin(body).Ok? && !BadCredentials(db, body, verify)
      && var u := Account(db, body).value;
         && u in db.users.rows && u.email == LoginKey(body.email.value)
         && r.value.claims == Claims(u.id, u.tenantId, u.email, u.role)
         && r.value.user.id == u.id && r.value.user.email == u.email && r.value.user.role == u.role
    ensures r.Ok? ==>
      && r.value.user.tenant.notesCount == NoteStore.CountByTenant(db.notes, r.value.claims.tenantId)
      && r.value.user.tenant.notesLimit == (if r.value.user.tenant.plan == Free then Capped(3) else NullLimit)
    ensures r.Err? ==> StatusOf(r.failure) == 400 || StatusOf(r.failure) == 401
  {
    match Validation.ValidateLogin(body)
    case Err(f) => Err(f)
    case Ok(creds) => SignIn(db, creds, verify)
  }

  /**
   * A failed login does not tell an unknown e-mail from a wrong password:
   * a store without the account and a store whose account rejects the
   * password give the very same reply.
   */
  lemma UnknownAndWrongPasswordAlike(db1: Db, db2: Db, body: Validation.LoginBody,
                                     verify1: (string, string) -> bool, verify2: (string, string) -> bool)
    requires Validation.ValidateLogin(body).Ok?
    requires forall u :: u in db1.users.rows ==> u.email != LoginKey(body.email.value)
    requires var found := UserStore.FindByEmail(db2.users, LoginKey(body.email.value));
      found.Some? && !verify2(body.password.value, found.value.passwordHash)
    ensures Login(db1, body, verify1) == Login(db2, body, verify2)
    ensures Login(db1, body, verify1).Err?
  {
  }

  /** A login whose account is found, accepts the password and has its tenant succeeds as that account. */
  lemma LoginSucceeds(db: Db, body: Validation.LoginBody, verify: (string, string) -> bool, u: User)
    requires Validation.ValidateLogin(body).Ok?
    requires Account(db, body) == Some(u)
    requires verify(body.password.value, u.passwordHash)
    requires exists t :: t in db.tenants && t.id == u.tenantId
    ensures Login(db, body, verify).Ok?
    ensures Login(db, body, verify).value.claims == Claims(u.id, u.tenantId, u.email, u.role)
  {
  }

  /** Lower-casing never produces or removes an '@'. */
  lemma AtSurvivesLowering(e: string)
    ensures '@' in e <==> '@' in AsciiLower(e)
  {
    var l := AsciiLower(e);
    if '@' in e {
      var i :| 0 <= i < |e| && e[i] == '@';
      assert l[i] == '@';
    }
    if '@' in l {
      var i :| 0 <= i < |l| && l[i] == '@';
      assert l[i] == AsciiLowerChar(e[i]);
    }
  }

  /** E-mails that differ only in the case of ASCII letters log in to the same account with the same outcome. */
  lemma LoginIgnoresCase(db: Db, e1: string, e2: string, password: Option<string>, verify: (string, string) -> bool)
    requires AsciiLower(e1) == AsciiLower(e2)
    ensures Login(db, Validation.LoginBody(Some(e1), password), verify)
         == Login(db, Validation.LoginBody(Some(e2), password), verify)
  {
    AtSurvivesLowering(e1);
    AtSurvivesLowering(e2);
    assert |e1| == |AsciiLower(e1)|;
  }

  /**
   * GET /auth/me. The profile is the authenticated caller's own id, e-mail
   * and role with their tenant's usage; a caller whose tenant row is gone
   * makes the handler read a field of nothing, a 500.
   */
  function Me(db: Db, who: Identity): (r: Result<Profile>)
    ensures r.Err? <==> forall t :: t in db.tenants ==> t.id != who.tenantId
    ensures r.Err? ==> r.failure == Crashed
    ensures r.Ok? ==> r.value.id == who.id && r.value.email == who.email && r.value.role == who.role
    ensures r.Ok? ==>
      && (exists t :: t in db.tenants && t.id == who.tenantId && r.value.tenant == Summarize(db, t))
      && r.value.tenant.notesCount == NoteStore.CountByTenant(db.notes, who.tenantId)
  {
    match TenantStore.FindById(db.tenants, who.tenantId)
    case None => Err(Crashed)
    case Some(tenant) => Ok(Profile(who.id, who.email, who.role, Summarize(db, tenant)))
  }

  /** The caller a session's token authenticates as. */
  function Bearer(c: Claims): Identity {
    Identity(c.userId, c.tenantId, c.email, c.role)
  }

  /** Reading the profile with a fresh session's token gives back the profile the login returned. */
  lemma MeAfterLogin(db: Db, body: Validation.LoginBody, verify: (string, string) -> bool)
    requires Login(db, body, verify).Ok?
    ensures Me(db, Bearer(Login(db, body, verify).value.claims)) == Ok(Login(db, body, verify).value.user)
  {
  }
}

=== FILE: database.dfy ===
/** The whole store the routes work on: one value per table. */
module Database {
  import opened Domain
  import NoteStore
  import UserStore

  datatype Db = Db(tenants: seq<Tenant>, users: UserStore.UserTable, notes: NoteStore.NoteTable)

  /** A route's response together with the store it leaves behind. */
  datatype Reply<+T> = Reply(result: Result<T>, db: Db)
}

=== FILE: domain.dfy ===
/**
 * Records shared by every layer of the notes backend: the three stored
 * entities, the authenticated caller, and the failure taxonomy the routes
 * report through.
 */
module Domain {

  /** Row identifiers. The database issues UUIDs; only equality matters here. */
  type Id = nat

  datatype Option<+T> = None | Some(value: T)

  datatype Role = Admin | Member

  datatype Plan = Free | Pro

  datatype Tenant = Tenant(id: Id, name: string, slug: string, plan: Plan, createdAt: nat, updatedAt: nat)

  datatype User = User(id: Id, tenantId: Id, email: string, passwordHash: string, role: Role, createdAt: nat)

  datatype Note = Note(
    id: Id, tenantId: Id, userId: Id,
    title: string, content: string,
    createdAt: nat, updatedAt: nat)

  /** The caller as established by token authentication (`req.user`). */
  datatype Identity = Identity(id: Id, tenantId: Id, email: string, role: Role)

  /** The error classes a handler throws; the error middleware turns each into a status. */
  datatype ErrorKind =
    | ValidationError
    | AuthenticationError
    | AuthorizationError
    | NotFoundError
    | ConflictError

  /**
   * How a request fails:
   * - Thrown: a handler or validator threw one of the application errors;
   * - Replied: a middleware or handler wrote the status and body itself;
   * - RoleRejected: the admin-only role guard turned the caller away;
   * - Crashed: a runtime fault (a field read on a missing row), rendered as 500.
   */
  datatype Failure =
    | Thrown(kind: ErrorKind, message: string)
    | Replied(status: nat, message: string)
    | RoleRejected
    | Crashed

  function StatusOf(f: Failure): nat {
    match f
    case Thrown(kind, _) =>
      (match kind
       case ValidationError => 400
       case AuthenticationError => 401
       case AuthorizationError => 403
       case NotFoundError => 404
       case ConflictError => 409)
    case Replied(status, _) => status
    case RoleRejected => 403
    case Crashed => 500
  }

  datatype Result<+T> = Ok(value: T) | Err(failure: Failure)

  /** The number of notes a tenant on the free plan may hold. */
  const FreeNoteLimit: nat := 3

  /**
   * The `notes_limit` field as the JSON responses render it: the number 3,
   * `null`, or the string "unlimited".
   */
  datatype NotesLimit = Capped(limit: nat) | NullLimit | UnlimitedText

  /** `notes_limit` in the login, profile and note-list responses. */
  function NotesLimitOf(plan: Plan): NotesLimit {
    if plan == Free then Capped(FreeNoteLimit) else NullLimit
  }
}

=== FILE: invariants.dfy ===
/**
 * The store over a whole run of writing requests: every request that
 * changes something, applied one after another. What holds of the store
 * before the run holds after it: the primary-key invariants, the plan that
 * never falls back from pro to free, and the free plan's cap on notes.
 */
module Invariants {
  import opened Domain
  import NoteStore
  import TenantStore
  import UserStore
  import Validation
  import opened Database
  import NoteRoutes
  import TenantRoutes
  import UserRoutes

  /** A request that may change the store. */
  datatype Request =
    | CreateNoteRequest(who: Identity, headerSlug: Option<string>, body: Validation.NoteBody, now: nat)
    | UpdateNoteRequest(who: Identity, headerSlug: Option<string>, id: Id, body: Validation.NoteBody, now: nat)
    | DeleteNoteRequest(who: Identity, headerSlug: Option<string>, id: Id)
    | UpgradePlanRequest(who: Identity, slug: string, now: nat)
    | InviteRequest(who: Identity, invite: UserRoutes.InviteBody, now: nat)

  /** The store a request leaves behind, whatever it answers. */
  function Apply(db: Db, req: Request, hash: string -> string): Db {
    match req
    case CreateNoteRequest(who, h, body, now) => NoteRoutes.CreateNote(db, who, h, body, now).db
    case UpdateNoteRequest(who, h, id, body, now) => NoteRoutes.UpdateNote(db, who, h, id, body, now).db
    case DeleteNoteRequest(who, h, id) => NoteRoutes.DeleteNote(db, who, h, id).db
    case UpgradePlanRequest(who, slug, now) => TenantRoutes.Upgrade(db, who, slug, now).db
    case InviteRequest(who, body, now) => UserRoutes.Invite(db, who, body, hash, now).db
  }

  /** The requests applied in order. */
  function Run(db: Db, reqs: seq<Request>, hash: string -> string): Db
    decreases |reqs|
  {
    if |reqs| == 0 then db else Run(Apply(db, reqs[0], hash), reqs[1..], hash)
  }

  /** Every tenant on the free plan holds at most three notes. */
  predicate WithinFreeLimit(db: Db) {
    forall i :: 0 <= i < |db.tenants| && db.tenants[i].plan == Free ==>
      NoteStore.CountByTenant(db.notes, db.tenants[i].id) <= FreeNoteLimit
  }

  /** The invariants the store keeps across requests. */
  predicate Healthy(db: Db) {
    && TenantStore.UniqueIds(db.tenants)
    && NoteStore.Valid(db.notes)
    && UserStore.Valid(db.users)
    && WithinFreeLimit(db)
  }

  /** Two tenant tables with the same ids and slugs in the same places, plans only moving up. */
  lemma PlansOnlyRiseTransitive(a: seq<Tenant>, b: seq<Tenant>, c: seq<Tenant>)
    requires TenantRoutes.PlansOnlyRise(a, b) && TenantRoutes.PlansOnlyRise(b, c)
    ensures TenantRoutes.PlansOnlyRise(a, c)
  {
  }

  /** Any request keeps the tenants' ids and slugs and never moves a plan from pro to free. */
  lemma ApplyPlansOnlyRise(db: Db, req: Request, hash: string -> string)
    ensures TenantRoutes.PlansOnlyRise(db.tenants, Apply(db, req, hash).tenants)
  {
  }

  /** Over any run, no tenant's plan goes back from pro to free, and no id or slug changes. */
  lemma {:induction false} RunPlansOnlyRise(db: Db, reqs: seq<Request>, hash: string -> string)
    ensures TenantRoutes.PlansOnlyRise(db.tenants, Run(db, reqs, hash).tenants)
    decreases |reqs|
  {
    if |reqs| > 0 {
      var next := Apply(db, reqs[0], hash);
      ApplyPlansOnlyRise(db, reqs[0], hash);
      RunPlansOnlyRise(next, reqs[1..], hash);
      PlansOnlyRiseTransitive(db.tenants, next.tenants, Run(db, reqs, hash).tenants);
    }
  }

  /**
   * A created note lands in a tenant that, under unique tenant ids, is the
   * one the quota check read; so a free tenant below the cap stays within it.
   */
  lemma CreateKeepsLimit(db: Db, who: Identity, h: Option<string>, body: Validation.NoteBody, now: nat)
    requires TenantStore.UniqueIds(db.tenants) && WithinFreeLimit(db)
    ensures WithinFreeLimit(NoteRoutes.CreateNote(db, who, h, body, now).db)
  {
    var r := NoteRoutes.CreateNote(db, who, h, body, now);
    if r.result.Ok? {
      var n := r.result.value;
      forall i | 0 <= i < |db.tenants| && db.tenants[i].plan == Free
        ensures NoteStore.CountByTenant(r.db.notes, db.tenants[i].id) <= FreeNoteLimit
      {
        var t := db.tenants[i];
        NoteStore.CountAppend(db.notes.rows, n, t.id);
        if t.id == who.tenantId {
          var found := TenantStore.FindById(db.tenants, who.tenantId);
          var k :| 0 <= k < |db.tenants| && db.tenants[k] == found.value;
          assert k == i;
          assert !NoteRoutes.AtFreeLimit(db, who.tenantId);
        }
      }
    }
  }

  /** Rewriting a note never moves it to another tenant, so every count stays. */
  lemma UpdateKeepsCounts(db: Db, who: Identity, h: Option<string>, id: Id, body: Validation.NoteBody, now: nat)
    ensures forall tid :: NoteStore.CountByTenant(NoteRoutes.UpdateNote(db, who, h, id, body, now).db.notes, tid)
                          == NoteStore.CountByTenant(db.notes, tid)
  {
    var r := NoteRoutes.UpdateNote(db, who, h, id, body, now);
    forall tid ensures NoteStore.CountByTenant(r.db.notes, tid) == NoteStore.CountByTenant(db.notes, tid) {
      NoteStore.CountKeepsTenants(r.db.notes.rows, db.notes.rows, tid);
    }
  }

  /** An upgrade changes only plans, and only from free to pro, so the free tenants left are as full as before. */
  lemma UpgradeKeepsLimit(db: Db, who: Identity, slug: string, now: nat)
    requires WithinFreeLimit(db)
    ensures WithinFreeLimit(TenantRoutes.Upgrade(db, who, slug, now).db)
  {
  }

  /** Every request keeps the store healthy. */
  lemma ApplyKeepsHealthy(db: Db, req: Request, hash: string -> string)
    requires Healthy(db)
    ensures Healthy(Apply(db, req, hash))
  {
    match req
    case CreateNoteRequest(who, h, body, now) =>
      CreateKeepsHealthy(db, who, h, body, now);
    case UpdateNoteRequest(who, h, id, body, now) =>
      UpdateKeepsHealthy(db, who, h, id, body, now);
    case DeleteNoteRequest(who, h, id) =>
      DeleteKeepsHealthy(db, who, h, id);
    case UpgradePlanRequest(who, slug, now) =>
      UpgradeKeepsHealthy(db, who, slug, now);
    case InviteRequest(who, body, now) =>
      InviteKeepsHealthy(db, who, body, hash, now);
  }

  lemma CreateKeepsHealthy(db: Db, who: Identity, h: Option<string>, body: Validation.NoteBody, now: nat)
    requires Healthy(db)
    ensures Healthy(NoteRoutes.CreateNote(db, who, h, body, now).db)
  {
    CreateKeepsLimit(db, who, h, body, now);
  }

  lemma UpdateKeepsHealthy(db: Db, who: Identity, h: Option<string>, id: Id, body: Validation.NoteBody, now: nat)
    requires Healthy(db)
    ensures Healthy(NoteRoutes.UpdateNote(db, who, h, id, body, now).db)
  {
    UpdateKeepsCounts(db, who, h, id, body, now);
  }

  lemma DeleteKeepsHealthy(db: Db, who: Identity, h: Option<string>, id: Id)
    requires Healthy(db)
    ensures Healthy(NoteRoutes.DeleteNote(db, who, h, id).db)
  {
  }

  lemma UpgradeKeepsHealthy(db: Db, who: Identity, slug: string, now: nat)
    requires Healthy(db)
    ensures Healthy(TenantRoutes.Upgrade(db, who, slug, now).db)
  {
    UpgradeKeepsLimit(db, who, slug, now);
  }

  lemma InviteKeepsHealthy(db: Db, who: Identity, body: UserRoutes.InviteBody, hash: string -> string, now: nat)
    requires Healthy(db)
    ensures Healthy(UserRoutes.Invite(db, who, body, hash, now).db)
  {
  }

  /** The corrected invite keeps the store healthy too, so the runs' invariant survives the fix. */
  lemma InviteNormalizedKeepsHealthy(db: Db, who: Identity, body: UserRoutes.InviteBody, hash: string -> string, now: nat)
    requires Healthy(db)
    ensures Healthy(UserRoutes.InviteNormalized(db, who, body, hash, now).db)
    ensures TenantRoutes.PlansOnlyRise(db.tenants, UserRoutes.InviteNormalized(db, who, body, hash, now).db.tenants)
  {
  }

  /**
   * Over any run of requests the store stays healthy: unique ids in every
   * table, and no free tenant above three notes, however requests interleave.
   */
  lemma {:induction false} RunKeepsHealthy(db: Db, reqs: seq<Request>, hash: string -> string)
    requires Healthy(db)
    ensures Healthy(Run(db, reqs, hash))
    decreases |reqs|
  {
    if |reqs| > 0 {
      ApplyKeepsHealthy(db, reqs[0], hash);
      RunKeepsHealthy(Apply(db, reqs[0], hash), reqs[1..], hash);
    }
  }
}

=== FILE: note_routes.dfy ===
/**
 * The five note handlers behind the notes router. Every request passes the
 * router's middleware first (authentication, which yields `who`, then
 * extractTenant and requireTenant); every handler scopes its query by the
 * CALLER's tenant, never by the tenant context the middleware resolved.
 */
module NoteRoutes {
  import opened Domain
  import opened Text
  import NoteStore
  import TenantStore
  import Validation
  import TenantContext
  import opened Database

  const MsgQuotaReached := "Free plan limited to 3 notes. Upgrade to Pro for unlimited notes."
  const MsgNoteNotFound := "Note not found or access denied"
  const ViewingAll := "All tenant notes"
  const ViewingOwn := "Your notes only"

  /** The note rows a caller may read, change or delete under a given id. */
  predicate MayTouch(who: Identity, id: Id, n: Note) {
    n.id == id && n.tenantId == who.tenantId && (who.role == Admin || n.userId == who.id)
  }

  /** No failure a note handler reports is an authorization failure. */
  predicate NotAnAuthorizationError(f: Failure) {
    !(f.Thrown? && f.kind == AuthorizationError)
  }

  /**
   * `extractTenant` then `requireTenant` as mounted on the notes router,
   * where the path has no `:slug`: it fails for a header slug no tenant has
   * (404) and, without a header slug, for a caller whose tenant is missing (400).
   */
  function Gate(db: Db, who: Identity, headerSlug: Option<string>): (r: Result<Tenant>)
    ensures r.Ok? ==> r.value in db.tenants
    ensures r.Err? <==>
      if Truthy(headerSlug) then forall x :: x in db.tenants ==> x.slug != headerSlug.value
      else forall x :: x in db.tenants ==> x.id != who.tenantId
    ensures r.Err? ==> NotAnAuthorizationError(r.failure)
  {
    match TenantContext.ExtractTenant(None, headerSlug, Some(who), db.tenants)
    case Err(f) => Err(f)
    case Ok(context) => TenantContext.RequireTenant(context)
  }

  /** The caller's tenant is on the free plan and already holds the limit. */
  predicate AtFreeLimit(db: Db, tenantId: Id) {
    && TenantStore.FindById(db.tenants, tenantId).Some?
    && TenantStore.FindById(db.tenants, tenantId).value.plan == Free
    && NoteStore.CountByTenant(db.notes, tenantId) >= FreeNoteLimit
  }

  /**
   * POST /notes. A free-plan tenant holding three notes or more gets a
   * conflict and no insert, counting every note of the tenant whoever asks;
   * a pro tenant is never refused on quota. A created note belongs to the
   * caller and the caller's tenant and carries the trimmed title and content.
   */
  function CreateNote(db: Db, who: Identity, headerSlug: Option<string>, body: Validation.NoteBody, now: nat)
    : (r: Reply<Note>)
    ensures Gate(db, who, headerSlug).Err? ==> r == Reply(Err(Gate(db, who, headerSlug).failure), db)
    ensures Gate(db, who, headerSlug).Ok? && Validation.ValidateNote(body).Err? ==>
      r == Reply(Err(Validation.ValidateNote(body).failure), db)
    ensures r.db.tenants == db.tenants && r.db.users == db.users
    ensures r.result.Err? ==> r.db == db
    ensures r.result.Err? ==> NotAnAuthorizationError(r.result.failure)
    ensures r.result.Ok? ==>
      && Gate(db, who, headerSlug).Ok? && Validation.ValidateNote(body).Ok?
      && r.result.value.tenantId == who.tenantId && r.result.value.userId == who.id
      && r.result.value.title == Trim(body.title.value)
      && r.result.value.content == Trim(body.content.value)
      && r.result.value.createdAt == now && r.result.value.updatedAt == now
      && r.db.notes.rows == db.notes.rows + [r.result.value]
    ensures r.result == Err(Thrown(ConflictError, MsgQuotaReached)) <==>
      && Gate(db, who, headerSlug).Ok? && Validation.ValidateNote(body).Ok?
      && AtFreeLimit(db, who.tenantId)
    ensures && Gate(db, who, headerSlug).Ok? && Validation.ValidateNote(body).Ok?
            && TenantStore.FindById(db.tenants, who.tenantId).Some?
            && TenantStore.FindById(db.tenants, who.tenantId).value.plan == Pro
            ==> r.result.Ok?
    ensures && Gate(db, who, headerSlug).Ok? && Validation.ValidateNote(body).Ok?
            && TenantStore.FindById(db.tenants, who.tenantId).Some?
            && !AtFreeLimit(db, who.tenantId)
            ==> r.result.Ok?
    ensures && Gate(db, who, headerSlug).Ok? && Validation.ValidateNote(body).Ok?
            && TenantStore.FindById(db.tenants, who.tenantId).None?
            ==> r == Reply(Err(Crashed), db)
    ensures NoteStore.Valid(db.notes) ==> NoteStore.Valid(r.db.notes)
  {
    match Gate(db, who, headerSlug)
    case Err(f) => Reply(Err(f), db)
    case Ok(_) =>
      match Validation.ValidateNote(body)
      case Err(f) => Reply(Err(f), db)
      case Ok(input) =>
        match TenantStore.FindById(db.tenants, who.tenantId)
        case None => Reply(Err(Crashed), db)
        case Some(tenant) =>
          if tenant.plan == Free && NoteStore.CountByTenant(db.notes, who.tenantId) >= FreeNoteLimit then
            Reply(Err(Thrown(ConflictError, MsgQuotaReached)), db)
          else
            var c := NoteStore.Create(db.notes, who.tenantId, who.id, Trim(input.title), Trim(input.content), now);
            Reply(Ok(c.result), db.(notes := c.table))
  }

  /** Admin and member of one tenant meet the same cap: the quota outcome does not depend on who asks. */
  lemma QuotaIsPerTenant(db: Db, who1: Identity, who2: Identity, headerSlug: Option<string>,
                         body: Validation.NoteBody, now: nat)
    requires who1.tenantId == who2.tenantId
    requires Gate(db, who1, headerSlug).Ok? && Gate(db, who2, headerSlug).Ok?
    ensures CreateNote(db, who1, headerSlug, body, now).result == Err(Thrown(ConflictError, MsgQuotaReached))
        <==> CreateNote(db, who2, headerSlug, body, now).result == Err(Thrown(ConflictError, MsgQuotaReached))
  {
  }

  datatype TenantInfo = TenantInfo(name: string, plan: Plan, notesLimit: NotesLimit)

  datatype NoteListing = NoteListing(
    notes: seq<NoteStore.ListedNote>, count: nat, tenantInfo: TenantInfo, viewing: string)

  /** The user id the read handlers pass to the model: none for an admin, the caller's own otherwise. */
  function ReadUserId(who: Identity): Option<Id> {
    if who.role == Admin then None else Some(who.id)
  }

  /**
   * GET /notes. The list holds only notes of the caller's tenant, only the
   * caller's own for a member, every note of the tenant (with an author row)
   * for an admin, newest first; `count` is its length and `notes_limit`
   * is 3 on the free plan and null on pro.
   */
  function ListNotes(db: Db, who: Identity, headerSlug: Option<string>): (r: Result<NoteListing>)
    ensures r.Err? <==> Gate(db, who, headerSlug).Err? || TenantStore.FindById(db.tenants, who.tenantId).None?
    ensures Gate(db, who, headerSlug).Err? ==> r == Err(Gate(db, who, headerSlug).failure)
    ensures Gate(db, who, headerSlug).Ok? && TenantStore.FindById(db.tenants, who.tenantId).None? ==> r == Err(Crashed)
    ensures r.Ok? ==> r.value.notes == NoteStore.FindByTenant(db.notes, db.users.rows, who.tenantId, ReadUserId(who), who.role)
    ensures r.Ok? ==> forall v :: v in r.value.notes ==>
      NoteStore.AuthorEmail(db.users.rows, v.note.userId) == Some(v.authorEmail)
    ensures r.Err? ==> NotAnAuthorizationError(r.failure)
    ensures r.Ok? ==> r.value.count == |r.value.notes|
    ensures r.Ok? ==>
      && r.value.tenantInfo.name == TenantStore.FindById(db.tenants, who.tenantId).value.name
      && r.value.tenantInfo.plan == TenantStore.FindById(db.tenants, who.tenantId).value.plan
      && r.value.tenantInfo.notesLimit == (if r.value.tenantInfo.plan == Free then Capped(3) else NullLimit)
    ensures r.Ok? ==> r.value.viewing == (if who.role == Admin then ViewingAll else ViewingOwn)
    ensures r.Ok? ==> NoteStore.NewestFirst(r.value.notes)
    ensures r.Ok? ==> forall v :: v in r.value.notes ==>
      v.note in db.notes.rows && v.note.tenantId == who.tenantId && (who.role == Member ==> v.note.userId == who.id)
    ensures r.Ok? ==> forall n :: n in db.notes.rows && n.tenantId == who.tenantId
                                  && (who.role == Admin || n.userId == who.id)
                                  && NoteStore.AuthorEmail(db.users.rows, n.userId).Some?
                                  ==> n in NoteStore.NotesOf(r.value.notes)
  {
    match Gate(db, who, headerSlug)
    case Err(f) => Err(f)
    case Ok(_) =>
      var notes := NoteStore.FindByTenant(db.notes, db.users.rows, who.tenantId, ReadUserId(who), who.role);
      match TenantStore.FindById(db.tenants, who.tenantId)
      case None => Err(Crashed)
      case Some(tenant) =>
        assert forall n :: n in db.notes.rows && n.tenantId == who.tenantId
                           && (who.role == Admin || n.userId == who.id)
                           && NoteStore.AuthorEmail(db.users.rows, n.userId).Some?
                           ==> n in NoteStore.NotesOf(notes) by {
          forall n | n in db.notes.rows && n.tenantId == who.tenantId
                     && (who.role == Admin || n.userId == who.id)
                     && NoteStore.AuthorEmail(db.users.rows, n.userId).Some?
            ensures n in NoteStore.NotesOf(notes)
          {
            NoteStore.FindByTenantBranches(db.notes, db.users.rows, who.tenantId, ReadUserId(who), who.role, n);
          }
        }
        Ok(NoteListing(
          notes, |notes|,
          TenantInfo(tenant.name, tenant.plan, NotesLimitOf(tenant.plan)),
          if who.role == Admin then ViewingAll else ViewingOwn))
  }

  /**
   * GET /notes/:id. A note comes back only when the caller may touch it;
   * when no row qualifies, whether it is missing, in another tenant or
   * another member's, the answer is the same NotFound.
   */
  function GetNote(db: Db, who: Identity, headerSlug: Option<string>, id: Id): (r: Result<Note>)
    ensures Gate(db, who, headerSlug).Err? ==> r == Err(Gate(db, who, headerSlug).failure)
    ensures Gate(db, who, headerSlug).Ok? ==>
      (r.Err? <==> forall n :: n in db.notes.rows ==> !MayTouch(who, id, n))
    ensures Gate(db, who, headerSlug).Ok? && r.Err? ==> r.failure == Thrown(NotFoundError, MsgNoteNotFound)
    ensures r.Err? ==> NotAnAuthorizationError(r.failure)
    ensures r.Ok? ==> r.value in db.notes.rows && MayTouch(who, id, r.value)
  {
    match Gate(db, who, headerSlug)
    case Err(f) => Err(f)
    case Ok(_) =>
      match NoteStore.FindById(db.notes, id, who.tenantId, ReadUserId(who), who.role)
      case None => Err(Thrown(NotFoundError, MsgNoteNotFound))
      case Some(n) => Ok(n)
  }

  /**
   * PUT /notes/:id. Only a row the caller may touch is rewritten, with the
   * trimmed title and content and a new `updated_at`; all other rows stay;
   * when none qualifies the answer is NotFound and nothing changes.
   */
  function UpdateNote(db: Db, who: Identity, headerSlug: Option<string>, id: Id,
                      body: Validation.NoteBody, now: nat): (r: Reply<Note>)
    ensures Gate(db, who, headerSlug).Err? ==> r == Reply(Err(Gate(db, who, headerSlug).failure), db)
    ensures Gate(db, who, headerSlug).Ok? && Validation.ValidateNote(body).Err? ==>
      r == Reply(Err(Validation.ValidateNote(body).failure), db)
    ensures r.db.tenants == db.tenants && r.db.users == db.users
    ensures r.result.Err? ==> r.db == db
    ensures r.result.Err? ==> NotAnAuthorizationError(r.result.failure)
    ensures Gate(db, who, headerSlug).Ok? && Validation.ValidateNote(body).Ok? ==>
      (r.result.Err? <==> forall n :: n in db.notes.rows ==> !MayTouch(who, id, n))
    ensures Gate(db, who, headerSlug).Ok? && Validation.ValidateNote(body).Ok? && r.result.Err? ==>
      r.result.failure == Thrown(NotFoundError, MsgNoteNotFound)
    ensures r.result.Ok? ==>
      && r.result.value in r.db.notes.rows && MayTouch(who, id, r.result.value)
      && Validation.ValidateNote(body).Ok?
      && r.result.value.title == Trim(body.title.value)
      && r.result.value.content == Trim(body.content.value)
      && r.result.value.updatedAt == now
    ensures |r.db.notes.rows| == |db.notes.rows|
    ensures forall i :: 0 <= i < |db.notes.rows| && !MayTouch(who, id, db.notes.rows[i]) ==>
      r.db.notes.rows[i] == db.notes.rows[i]
    ensures r.result.Ok? ==> forall i :: 0 <= i < |db.notes.rows| && MayTouch(who, id, db.notes.rows[i]) ==>
      r.db.notes.rows[i] == NoteStore.Revise(db.notes.rows[i], Trim(body.title.value), Trim(body.content.value), now)
    ensures forall i :: 0 <= i < |db.notes.rows| ==> r.db.notes.rows[i].tenantId == db.notes.rows[i].tenantId
    ensures NoteStore.Valid(db.notes) ==> NoteStore.Valid(r.db.notes)
  {
    match Gate(db, who, headerSlug)
    case Err(f) => Reply(Err(f), db)
    case Ok(_) =>
      match Validation.ValidateNote(body)
      case Err(f) => Reply(Err(f), db)
      case Ok(input) =>
        var c := NoteStore.Update(db.notes, id, who.tenantId, who.id, Trim(input.title), Trim(input.content),
                                  who.role, now);
        UpdateForCaller(db.notes, who, id, Trim(input.title), Trim(input.content), now);
        match c.result
        case None => Reply(Err(Thrown(NotFoundError, MsgNoteNotFound)), db)
        case Some(n) => Reply(Ok(n), db.(notes := c.table))
  }

  /** The rows the write queries match for the caller are exactly those the caller may touch. */
  lemma WriteTargetsAreTouchable(who: Identity, id: Id)
    ensures forall n :: NoteStore.IsTarget(id, NoteStore.WriteScope(who.tenantId, who.id, who.role), n)
                        <==> MayTouch(who, id, n)
  {
  }

  /** The note model's update, in terms of the rows the caller may touch. */
  lemma UpdateForCaller(t: NoteStore.NoteTable, who: Identity, id: Id, title: string, content: string, now: nat)
    ensures var c := NoteStore.Update(t, id, who.tenantId, who.id, title, content, who.role, now);
      && (c.result.None? <==> forall n :: n in t.rows ==> !MayTouch(who, id, n))
      && (c.result.None? ==> c.table == t)
      && (c.result.Some? ==> c.result.value in c.table.rows && MayTouch(who, id, c.result.value)
                             && c.result.value.title == title && c.result.value.content == content
                             && c.result.value.updatedAt == now)
      && |c.table.rows| == |t.rows|
      && (forall i :: 0 <= i < |t.rows| && !MayTouch(who, id, t.rows[i]) ==> c.table.rows[i] == t.rows[i])
      && (forall i :: 0 <= i < |t.rows| && MayTouch(who, id, t.rows[i]) ==>
            c.table.rows[i] == NoteStore.Revise(t.rows[i], title, content, now))
      && (forall i :: 0 <= i < |t.rows| ==> c.table.rows[i].tenantId == t.rows[i].tenantId)
      && (NoteStore.Valid(t) ==> NoteStore.Valid(c.table))
  {
    WriteTargetsAreTouchable(who, id);
  }

  /** The `deleted_note` of the delete response. */
  datatype DeletedNote = DeletedNote(id: Id, title: string)

  /**
   * DELETE /notes/:id. Exactly the rows the caller may touch go, and the
   * response names the removed note; when none qualifies the answer is
   * NotFound and nothing changes.
   */
  function DeleteNote(db: Db, who: Identity, headerSlug: Option<string>, id: Id): (r: Reply<DeletedNote>)
    ensures Gate(db, who, headerSlug).Err? ==> r == Reply(Err(Gate(db, who, headerSlug).failure), db)
    ensures r.db.tenants == db.tenants && r.db.users == db.users && r.db.notes.nextId == db.notes.nextId
    ensures r.result.Err? ==> r.db == db
    ensures r.result.Err? ==> NotAnAuthorizationError(r.result.failure)
    ensures Gate(db, who, headerSlug).Ok? ==>
      (r.result.Err? <==> forall n :: n in db.notes.rows ==> !MayTouch(who, id, n))
    ensures Gate(db, who, headerSlug).Ok? && r.result.Err? ==>
      r.result.failure == Thrown(NotFoundError, MsgNoteNotFound)
    ensures r.result.Ok? ==>
      && (forall n :: n in r.db.notes.rows <==> n in db.notes.rows && !MayTouch(who, id, n))
      && exists n :: n in db.notes.rows && MayTouch(who, id, n) && r.result.value == DeletedNote(n.id, n.title)
    ensures NoteStore.Valid(db.notes) ==> NoteStore.Valid(r.db.notes)
    ensures forall tid :: NoteStore.CountByTenant(r.db.notes, tid) <= NoteStore.CountByTenant(db.notes, tid)
  {
    match Gate(db, who, headerSlug)
    case Err(f) => Reply(Err(f), db)
    case Ok(_) =>
      var c := NoteStore.Delete(db.notes, id, who.tenantId, who.id, who.role);
      match c.result
      case None => Reply(Err(Thrown(NotFoundError, MsgNoteNotFound)), db)
      case Some(n) => Reply(Ok(DeletedNote(n.id, n.title)), db.(notes := c.table))
  }

  /**
   * The `X-Tenant-Slug` header cannot widen access: once the middleware lets
   * a request through, every note handler answers the same whichever slug it named.
   */
  lemma HeaderSlugIsIgnored(db: Db, who: Identity, h1: Option<string>, h2: Option<string>,
                            id: Id, body: Validation.NoteBody, now: nat)
    requires Gate(db, who, h1).Ok? && Gate(db, who, h2).Ok?
    ensures CreateNote(db, who, h1, body, now) == CreateNote(db, who, h2, body, now)
    ensures ListNotes(db, who, h1) == ListNotes(db, who, h2)
    ensures GetNote(db, who, h1, id) == GetNote(db, who, h2, id)
    ensures UpdateNote(db, who, h1, id, body, now) == UpdateNote(db, who, h2, id, body, now)
    ensures DeleteNote(db, who, h1, id) == DeleteNote(db, who, h2, id)
  {
  }

  /**
   * A note of another tenant, or (for a member) another member's note, is
   * hidden behind NotFound for reading, changing and deleting, and stays put.
   */
  lemma ForeignNoteIsHidden(db: Db, who: Identity, headerSlug: Option<string>, n: Note,
                            body: Validation.NoteBody, now: nat)
    requires NoteStore.Valid(db.notes) && n in db.notes.rows
    requires n.tenantId != who.tenantId || (who.role == Member && n.userId != who.id)
    requires Gate(db, who, headerSlug).Ok? && Validation.ValidateNote(body).Ok?
    ensures GetNote(db, who, headerSlug, n.id) == Err(Thrown(NotFoundError, MsgNoteNotFound))
    ensures UpdateNote(db, who, headerSlug, n.id, body, now) == Reply(Err(Thrown(NotFoundError, MsgNoteNotFound)), db)
    ensures DeleteNote(db, who, headerSlug, n.id) == Reply(Err(Thrown(NotFoundError, MsgNoteNotFound)), db)
  {
    NoteStore.OnlyRowWithItsId(db.notes, n);
  }
}

=== FILE: note_store.dfy ===
/**
 * The notes table and the six queries of the Note model. Every query filters
 * rows by a Scope (the WHERE clause); the read queries and the write queries
 * choose their scope differently, which the model keeps.
 */
module NoteStore {
  import opened Domain

  /** The notes table; `nextId` stands for the database's fresh-id source. */
  datatype NoteTable = NoteTable(rows: seq<Note>, nextId: Id)

  predicate UniqueIds(rows: seq<Note>) {
    forall i, j :: 0 <= i < j < |rows| ==> rows[i].id != rows[j].id
  }

  /** The primary-key invariant: ids are distinct and all below `nextId`. */
  predicate Valid(t: NoteTable) {
    && (forall i :: 0 <= i < |t.rows| ==> t.rows[i].id < t.nextId)
    && UniqueIds(t.rows)
  }

  /**
   * The WHERE clause of a scoped query: the whole tenant, one author's notes
   * in the tenant, or nothing (a comparison with a NULL user id).
   */
  datatype Scope = WholeTenant(tenantId: Id) | OwnNotes(tenantId: Id, userId: Id) | NoRows

  predicate InScope(scope: Scope, n: Note) {
    match scope
    case WholeTenant(t) => n.tenantId == t
    case OwnNotes(t, u) => n.tenantId == t && n.userId == u
    case NoRows => false
  }

  /**
   * The scope of `findByTenant` and `findById`: tenant-wide only for an
   * admin called WITHOUT a user id; otherwise the caller's own notes, and
   * with no user id at all, nothing.
   */
  function ReadScope(tenantId: Id, userId: Option<Id>, role: Role): (s: Scope)
    ensures forall n :: InScope(s, n) <==>
      n.tenantId == tenantId && ((role == Admin && userId == None) || userId == Some(n.userId))
  {
    if role == Admin && userId.None? then WholeTenant(tenantId)
    else if userId.Some? then OwnNotes(tenantId, userId.value)
    else NoRows
  }

  /** The scope of `update` and `delete`: any admin gets the whole tenant, whatever user id is passed. */
  function WriteScope(tenantId: Id, userId: Id, role: Role): (s: Scope)
    ensures forall n :: InScope(s, n) <==>
      n.tenantId == tenantId && (role == Admin || n.userId == userId)
  {
    if role == Admin then WholeTenant(tenantId) else OwnNotes(tenantId, userId)
  }

  /** The rows the scope admits, in table order. */
  function Select(rows: seq<Note>, scope: Scope): (r: seq<Note>)
    ensures |r| <= |rows|
    ensures forall n :: n in r <==> n in rows && InScope(scope, n)
  {
    if |rows| == 0 then []
    else (if InScope(scope, rows[0]) then [rows[0]] else []) + Select(rows[1..], scope)
  }

  /** A row matched by `WHERE id = $1` together with a scope. */
  predicate IsTarget(id: Id, scope: Scope, n: Note) {
    n.id == id && InScope(scope, n)
  }

  function Targets(rows: seq<Note>, id: Id, scope: Scope): (r: seq<Note>)
    ensures |r| <= |rows|
    ensures forall n :: n in r <==> n in rows && IsTarget(id, scope, n)
  {
    if |rows| == 0 then []
    else (if IsTarget(id, scope, rows[0]) then [rows[0]] else []) + Targets(rows[1..], id, scope)
  }

  /** `result.rows[0]`: the first row a query returns, or nothing. */
  function First(rows: seq<Note>): Option<Note> {
    if |rows| == 0 then None else Some(rows[0])
  }

  /** A list row: the note with its author's e-mail from the join on users. */
  datatype ListedNote = ListedNote(note: Note, authorEmail: string)

  /** The e-mail of the first user row with the given id, if any. */
  function AuthorEmail(users: seq<User>, userId: Id): (r: Option<string>)
    ensures r.Some? <==> exists u :: u in users && u.id == userId
    ensures r.Some? ==> exists u :: u in users && u.id == userId && u.email == r.value
  {
    if |users| == 0 then None
    else if users[0].id == userId then Some(users[0].email)
    else AuthorEmail(users[1..], userId)
  }

  /** The inner join `notes n JOIN users u ON n.user_id = u.id`: a note without an author row drops out. */
  function Join(rows: seq<Note>, users: seq<User>): (r: seq<ListedNote>)
    ensures forall v :: v in r <==> v.note in rows && AuthorEmail(users, v.note.userId) == Some(v.authorEmail)
  {
    if |rows| == 0 then []
    else
      var head := match AuthorEmail(users, rows[0].userId)
                  case Some(e) => [ListedNote(rows[0], e)]
                  case None => [];
      head + Join(rows[1..], users)
  }

  /** `ORDER BY created_at DESC`. */
  predicate NewestFirst(s: seq<ListedNote>) {
    forall i, j :: 0 <= i < j < |s| ==> s[i].note.createdAt >= s[j].note.createdAt
  }

  function Insert(v: ListedNote, s: seq<ListedNote>): (r: seq<ListedNote>)
    requires NewestFirst(s)
    ensures NewestFirst(r)
    ensures multiset(r) == multiset(s) + multiset{v}
  {
    if |s| == 0 then [v]
    else if v.note.createdAt >= s[0].note.createdAt then
      PrependKeepsOrder(v, s);
      [v] + s
    else
      var rest := Insert(v, s[1..]);
      InsertBelowHead(v, s, rest);
      [s[0]] + rest
  }

  lemma PrependKeepsOrder(x: ListedNote, s: seq<ListedNote>)
    requires NewestFirst(s)
    requires forall w :: w in s ==> x.note.createdAt >= w.note.createdAt
    ensures NewestFirst([x] + s)
  {
    forall i, j | 0 <= i < j < |[x] + s|
      ensures ([x] + s)[i].note.createdAt >= ([x] + s)[j].note.createdAt
    {
      if i == 0 {
        assert ([x] + s)[j] == s[j - 1];
        assert s[j - 1] in s;
      }
    }
  }

  lemma InsertBelowHead(v: ListedNote, s: seq<ListedNote>, rest: seq<ListedNote>)
    requires NewestFirst(s) && |s| > 0
    requires v.note.createdAt < s[0].note.createdAt
    requires NewestFirst(rest)
    requires multiset(rest) == multiset(s[1..]) + multiset{v}
    ensures NewestFirst([s[0]] + rest)
    ensures multiset([s[0]] + rest) == multiset(s) + multiset{v}
  {
    assert s == [s[0]] + s[1..];
    forall w | w in rest ensures s[0].note.createdAt >= w.note.createdAt {
      assert w in multiset(rest);
      if w != v {
        assert w in multiset(s[1..]);
        var k :| 0 <= k < |s[1..]| && s[1..][k] == w;
        assert s[k + 1] == w;
      }
    }
    PrependKeepsOrder(s[0], rest);
  }

  /** Orders rows newest first; the source leaves the order among equal timestamps open, this fixes one. */
  function SortNewestFirst(s: seq<ListedNote>): (r: seq<ListedNote>)
    ensures NewestFirst(r)
    ensures multiset(r) == multiset(s)
  {
    if |s| == 0 then []
    else
      assert s == [s[0]] + s[1..];
      Insert(s[0], SortNewestFirst(s[1..]))
  }

  /** The notes of a list, without their author e-mails. */
  function NotesOf(s: seq<ListedNote>): (r: seq<Note>)
    ensures |r| == |s|
    ensures forall i :: 0 <= i < |s| ==> r[i] == s[i].note
  {
    seq(|s|, i requires 0 <= i < |s| => s[i].note)
  }

  /**
   * `Note.findByTenant`: the scoped rows joined with their authors, newest
   * first. Nothing outside the tenant is ever returned, and a joined row is
   * returned exactly when the read scope admits its note.
   */
  function FindByTenant(t: NoteTable, users: seq<User>, tenantId: Id, userId: Option<Id>, role: Role)
    : (r: seq<ListedNote>)
    ensures NewestFirst(r)
    ensures forall v :: v in r ==> v.note.tenantId == tenantId
    ensures forall v :: v in r <==>
      && v.note in t.rows
      && InScope(ReadScope(tenantId, userId, role), v.note)
      && AuthorEmail(users, v.note.userId) == Some(v.authorEmail)
    ensures multiset(r) == multiset(Join(Select(t.rows, ReadScope(tenantId, userId, role)), users))
  {
    var joined := Join(Select(t.rows, ReadScope(tenantId, userId, role)), users);
    var r := SortNewestFirst(joined);
    assert forall v :: v in r <==> v in multiset(r);
    assert forall v :: v in joined <==> v in multiset(joined);
    r
  }

  /**
   * In the terms of the two SQL branches: when every note's author exists,
   * an admin called without a user id lists exactly the tenant's notes, and
   * every other call lists exactly the notes of the tenant written by `userId`.
   */
  lemma FindByTenantBranches(t: NoteTable, users: seq<User>, tenantId: Id, userId: Option<Id>, role: Role, n: Note)
    requires AuthorEmail(users, n.userId).Some?
    ensures var listed := NotesOf(FindByTenant(t, users, tenantId, userId, role));
      if role == Admin && userId == None then
        n in listed <==> n in t.rows && n.tenantId == tenantId
      else
        n in listed <==> n in t.rows && n.tenantId == tenantId && userId == Some(n.userId)
  {
    var r := FindByTenant(t, users, tenantId, userId, role);
    var listed := NotesOf(r);
    var v := ListedNote(n, AuthorEmail(users, n.userId).value);
    if n in listed {
      var i :| 0 <= i < |listed| && listed[i] == n;
      assert r[i] in r;
    }
    if n in t.rows && InScope(ReadScope(tenantId, userId, role), n) {
      assert v in r;
      var i :| 0 <= i < |r| && r[i] == v;
      assert listed[i] == n;
    }
  }

  /**
   * `Note.findById`: the first row with that id inside the read scope. A
   * note is returned only if id, tenant and (off the admin branch) owner all
   * match; otherwise nothing is.
   */
  function FindById(t: NoteTable, id: Id, tenantId: Id, userId: Option<Id>, role: Role): (r: Option<Note>)
    ensures r.Some? ==>
      && r.value in t.rows
      && r.value.id == id
      && r.value.tenantId == tenantId
      && (!(role == Admin && userId == None) ==> userId == Some(r.value.userId))
    ensures r.None? <==> forall n :: n in t.rows && n.id == id && n.tenantId == tenantId ==>
      !((role == Admin && userId == None) || userId == Some(n.userId))
  {
    var hits := Targets(t.rows, id, ReadScope(tenantId, userId, role));
    assert |hits| > 0 ==> hits[0] in hits;
    First(hits)
  }

  /** The outcome of a write: the table afterwards and what the query returned. */
  datatype Change<+T> = Change(table: NoteTable, result: T)

  /**
   * `Note.create`: the row is appended under a fresh id, stamped with the
   * current time, and the primary-key invariant is kept.
   */
  function Create(t: NoteTable, tenantId: Id, userId: Id, title: string, content: string, now: nat)
    : (r: Change<Note>)
    ensures r.table.rows == t.rows + [r.result]
    ensures r.table.nextId > t.nextId
    ensures && r.result.tenantId == tenantId && r.result.userId == userId
            && r.result.title == title && r.result.content == content
            && r.result.createdAt == now && r.result.updatedAt == now
    ensures Valid(t) ==> Valid(r.table) && forall n :: n in t.rows ==> n.id != r.result.id
  {
    var n := Note(t.nextId, tenantId, userId, title, content, now, now);
    Change(NoteTable(t.rows + [n], t.nextId + 1), n)
  }

  /** The author reads back the note just created, and so does an admin of the tenant. */
  lemma CreateThenFind(t: NoteTable, tenantId: Id, userId: Id, title: string, content: string, now: nat, role: Role)
    requires Valid(t)
    ensures var c := Create(t, tenantId, userId, title, content, now);
      && FindById(c.table, c.result.id, tenantId, Some(userId), role) == Some(c.result)
      && FindById(c.table, c.result.id, tenantId, None, Admin) == Some(c.result)
  {
    var c := Create(t, tenantId, userId, title, content, now);
    TargetsOfFreshRow(t.rows, c.result, ReadScope(tenantId, Some(userId), role));
    TargetsOfFreshRow(t.rows, c.result, ReadScope(tenantId, None, Admin));
  }

  lemma {:induction false} TargetsOfFreshRow(rows: seq<Note>, n: Note, scope: Scope)
    requires forall m :: m in rows ==> m.id != n.id
    requires InScope(scope, n)
    ensures Targets(rows + [n], n.id, scope) == [n]
  {
    if |rows| == 0 {
      assert Targets([n][1..], n.id, scope) == [];
    } else {
      assert (rows + [n])[1..] == rows[1..] + [n];
      TargetsOfFreshRow(rows[1..], n, scope);
    }
  }

  /** The new title, content and timestamp of a note an update matched. */
  function Revise(n: Note, title: string, content: string, now: nat): Note {
    n.(title := title, content := content, updatedAt := now)
  }

  /**
   * `Note.update`: every row the write scope and id match gets the new
   * title, content and `updated_at`; its id, tenant, author and creation time
   * stay, every other row is untouched, and the first updated row is returned.
   */
  function Update(t: NoteTable, id: Id, tenantId: Id, userId: Id, title: string, content: string,
                  role: Role, now: nat): (r: Change<Option<Note>>)
    ensures r.table.nextId == t.nextId
    ensures |r.table.rows| == |t.rows|
    ensures forall i :: 0 <= i < |t.rows| && !IsTarget(id, WriteScope(tenantId, userId, role), t.rows[i]) ==>
      r.table.rows[i] == t.rows[i]
    ensures forall i :: 0 <= i < |t.rows| && IsTarget(id, WriteScope(tenantId, userId, role), t.rows[i]) ==>
      && r.table.rows[i].id == t.rows[i].id
      && r.table.rows[i].tenantId == t.rows[i].tenantId
      && r.table.rows[i].userId == t.rows[i].userId
      && r.table.rows[i].createdAt == t.rows[i].createdAt
      && r.table.rows[i].title == title
      && r.table.rows[i].content == content
      && r.table.rows[i].updatedAt == now
    ensures r.result.None? <==> forall n :: n in t.rows ==> !IsTarget(id, WriteScope(tenantId, userId, role), n)
    ensures r.result.None? ==> r.table == t
    ensures r.result.Some? ==>
      && r.result.value in r.table.rows
      && r.result.value.id == id && r.result.value.tenantId == tenantId
      && (role != Admin ==> r.result.value.userId == userId)
      && r.result.value.title == title && r.result.value.content == content
      && r.result.value.updatedAt == now
    ensures Valid(t) ==> Valid(r.table)
  {
    var scope := WriteScope(tenantId, userId, role);
    var rows := seq(|t.rows|, i requires 0 <= i < |t.rows| =>
                      if IsTarget(id, scope, t.rows[i]) then Revise(t.rows[i], title, content, now) else t.rows[i]);
    var hits := Targets(t.rows, id, scope);
    var result := match First(hits) case None => None case Some(n) => Some(Revise(n, title, content, now));
    SameIdsKeepValid(t, rows);
    if result.Some? then
      assert hits[0] in hits;
      var k :| 0 <= k < |t.rows| && t.rows[k] == hits[0];
      assert rows[k] == result.value;
      Change(NoteTable(rows, t.nextId), result)
    else
      assert rows == t.rows;
      Change(NoteTable(rows, t.nextId), result)
  }

  /** Rewriting rows in place without touching their ids keeps the primary-key invariant. */
  lemma SameIdsKeepValid(t: NoteTable, rows: seq<Note>)
    requires |rows| == |t.rows|
    requires forall i :: 0 <= i < |rows| ==> rows[i].id == t.rows[i].id
    ensures Valid(t) ==> Valid(NoteTable(rows, t.nextId))
  {
  }

  /** Under the primary-key invariant an update rewrites at most one row. */
  lemma UpdateTouchesOneRow(t: NoteTable, id: Id, tenantId: Id, userId: Id, title: string, content: string,
                            role: Role, now: nat, i: int, j: int)
    requires Valid(t)
    requires 0 <= i < |t.rows| && 0 <= j < |t.rows|
    ensures var u := Update(t, id, tenantId, userId, title, content, role, now);
      u.table.rows[i] != t.rows[i] && u.table.rows[j] != t.rows[j] ==> i == j
  {
  }

  /** The rows a delete keeps. */
  function Remove(rows: seq<Note>, id: Id, scope: Scope): (r: seq<Note>)
    ensures forall n :: n in r <==> n in rows && !IsTarget(id, scope, n)
  {
    if |rows| == 0 then []
    else (if IsTarget(id, scope, rows[0]) then [] else [rows[0]]) + Remove(rows[1..], id, scope)
  }

  /** The kept rows and the matched rows together are the table, row for row. */
  lemma {:induction false} RemoveSplitsRows(rows: seq<Note>, id: Id, scope: Scope)
    ensures multiset(Remove(rows, id, scope)) + multiset(Targets(rows, id, scope)) == multiset(rows)
  {
    if |rows| > 0 {
      var head, tail := rows[0], rows[1..];
      RemoveSplitsRows(tail, id, scope);
      assert rows == [head] + tail;
      var kept := if IsTarget(id, scope, head) then [] else [head];
      var hit := if IsTarget(id, scope, head) then [head] else [];
      assert Remove(rows, id, scope) == kept + Remove(tail, id, scope);
      assert Targets(rows, id, scope) == hit + Targets(tail, id, scope);
      assert multiset(kept) + multiset(hit) == multiset{head};
    }
  }

  /** Removing rows keeps the ids distinct. */
  lemma {:induction false} RemoveKeepsUnique(rows: seq<Note>, id: Id, scope: Scope)
    requires UniqueIds(rows)
    ensures UniqueIds(Remove(rows, id, scope))
  {
    if |rows| > 0 {
      assert UniqueIds(rows[1..]);
      RemoveKeepsUnique(rows[1..], id, scope);
      if !IsTarget(id, scope, rows[0]) {
        KeptHeadStaysUnique(rows, Remove(rows[1..], id, scope));
      }
    }
  }

  lemma KeptHeadStaysUnique(rows: seq<Note>, rest: seq<Note>)
    requires |rows| > 0
    requires forall n :: n in rest ==> n in rows[1..]
    requires UniqueIds(rows[1..]) ==> UniqueIds(rest)
    ensures UniqueIds(rows) ==> UniqueIds([rows[0]] + rest)
  {
    if UniqueIds(rows) {
      assert UniqueIds(rows[1..]);
      forall n | n in rest ensures n.id != rows[0].id {
        var k :| 0 <= k < |rows[1..]| && rows[1..][k] == n;
        assert rows[k + 1] == n;
      }
      forall i, j | 0 <= i < j < |[rows[0]] + rest|
        ensures ([rows[0]] + rest)[i].id != ([rows[0]] + rest)[j].id
      {
        if i == 0 {
          assert ([rows[0]] + rest)[j] == rest[j - 1];
          assert rest[j - 1] in rest;
        } else {
          assert ([rows[0]] + rest)[i] == rest[i - 1];
          assert ([rows[0]] + rest)[j] == rest[j - 1];
        }
      }
    }
  }

  /** With unique ids, a note is the only row that carries its id. */
  lemma OnlyRowWithItsId(t: NoteTable, n: Note)
    requires Valid(t) && n in t.rows
    ensures forall m :: m in t.rows && m.id == n.id ==> m == n
  {
  }

  /** With unique ids, at most one row is a target. */
  lemma {:induction false} AtMostOneTarget(rows: seq<Note>, id: Id, scope: Scope)
    requires UniqueIds(rows)
    ensures |Targets(rows, id, scope)| <= 1
  {
    if |rows| > 0 {
      assert UniqueIds(rows[1..]);
      AtMostOneTarget(rows[1..], id, scope);
      if IsTarget(id, scope, rows[0]) {
        forall n | n in rows[1..] ensures n.id != rows[0].id {
          var k :| 0 <= k < |rows[1..]| && rows[1..][k] == n;
          assert rows[k + 1] == n;
        }
        NoTargetsWithoutId(rows[1..], id, scope);
      }
    }
  }

  lemma {:induction false} NoTargetsWithoutId(rows: seq<Note>, id: Id, scope: Scope)
    requires forall n :: n in rows ==> n.id != id
    ensures Targets(rows, id, scope) == []
  {
    if |rows| > 0 {
      assert rows[0] in rows;
      NoTargetsWithoutId(rows[1..], id, scope);
    }
  }

  /**
   * `Note.delete`: every row matched by id and write scope goes and the first
   * of them is returned; when nothing matches, the table is unchanged. Under
   * the primary-key invariant exactly the returned row is removed.
   */
  function Delete(t: NoteTable, id: Id, tenantId: Id, userId: Id, role: Role): (r: Change<Option<Note>>)
    ensures r.table.nextId == t.nextId
    ensures forall n :: n in r.table.rows <==> n in t.rows && !IsTarget(id, WriteScope(tenantId, userId, role), n)
    ensures r.result.None? <==> forall n :: n in t.rows ==> !IsTarget(id, WriteScope(tenantId, userId, role), n)
    ensures r.result.None? ==> r.table == t
    ensures r.result.Some? ==>
      && r.result.value in t.rows
      && r.result.value !in r.table.rows
      && r.result.value.id == id && r.result.value.tenantId == tenantId
      && (role != Admin ==> r.result.value.userId == userId)
    ensures Valid(t) ==> Valid(r.table)
    ensures Valid(t) && r.result.Some? ==> multiset(r.table.rows) == multiset(t.rows) - multiset{r.result.value}
    ensures forall tid :: CountByTenant(r.table, tid) <= CountByTenant(t, tid)
  {
    var scope := WriteScope(tenantId, userId, role);
    var hits := Targets(t.rows, id, scope);
    DeleteFacts(t, id, scope);
    RemoveNeverRaisesCounts(t.rows, id, scope);
    if |hits| == 0 then Change(t, None)
    else Change(NoteTable(Remove(t.rows, id, scope), t.nextId), Some(hits[0]))
  }

  lemma DeleteFacts(t: NoteTable, id: Id, scope: Scope)
    ensures var hits := Targets(t.rows, id, scope);
      var rows := Remove(t.rows, id, scope);
      && (|hits| == 0 ==> rows == t.rows)
      && (|hits| > 0 ==> hits[0] in t.rows && IsTarget(id, scope, hits[0]) && hits[0] !in rows)
      && (Valid(t) ==> Valid(NoteTable(rows, t.nextId)))
      && (Valid(t) && |hits| > 0 ==> multiset(rows) == multiset(t.rows) - multiset{hits[0]})
  {
    var hits := Targets(t.rows, id, scope);
    if |hits| == 0 {
      RemoveWithoutTargets(t.rows, id, scope);
    } else {
      assert hits[0] in hits;
    }
    if Valid(t) {
      RemoveKeepsValid(t, id, scope);
      if |hits| > 0 {
        RemoveOnlyTarget(t, id, scope);
      }
    }
  }

  /** Under the primary-key invariant a delete that matches removes exactly its one target. */
  lemma RemoveOnlyTarget(t: NoteTable, id: Id, scope: Scope)
    requires Valid(t) && |Targets(t.rows, id, scope)| > 0
    ensures multiset(Remove(t.rows, id, scope)) == multiset(t.rows) - multiset{Targets(t.rows, id, scope)[0]}
  {
    var hits := Targets(t.rows, id, scope);
    RemoveSplitsRows(t.rows, id, scope);
    AtMostOneTarget(t.rows, id, scope);
    assert hits == [hits[0]];
  }

  lemma RemoveKeepsValid(t: NoteTable, id: Id, scope: Scope)
    requires Valid(t)
    ensures Valid(NoteTable(Remove(t.rows, id, scope), t.nextId))
  {
    var rows := Remove(t.rows, id, scope);
    RemoveKeepsUnique(t.rows, id, scope);
    forall i | 0 <= i < |rows| ensures rows[i].id < t.nextId {
      assert rows[i] in rows;
      var k :| 0 <= k < |t.rows| && t.rows[k] == rows[i];
    }
  }

  lemma RemoveNeverRaisesCounts(rows: seq<Note>, id: Id, scope: Scope)
    ensures forall tid :: CountIn(Remove(rows, id, scope), tid) <= CountIn(rows, tid)
  {
    forall tid ensures CountIn(Remove(rows, id, scope), tid) <= CountIn(rows, tid) {
      CountRemove(rows, id, scope, tid);
    }
  }

  lemma {:induction false} RemoveWithoutTargets(rows: seq<Note>, id: Id, scope: Scope)
    requires forall n :: n in rows ==> !IsTarget(id, scope, n)
    ensures Remove(rows, id, scope) == rows
  {
    if |rows| > 0 {
      RemoveWithoutTargets(rows[1..], id, scope);
      assert rows == [rows[0]] + rows[1..];
    }
  }

  /** The number of rows of the tenant, one by one. */
  function CountIn(rows: seq<Note>, tenantId: Id): (c: nat)
    ensures c == |Select(rows, WholeTenant(tenantId))|
  {
    if |rows| == 0 then 0
    else (if rows[0].tenantId == tenantId then 1 else 0) + CountIn(rows[1..], tenantId)
  }

  /** `Note.countByTenant`: the number of stored notes of the tenant. */
  function CountByTenant(t: NoteTable, tenantId: Id): (c: nat)
    ensures c == |Select(t.rows, WholeTenant(tenantId))|
    ensures c <= |t.rows|
  {
    CountIn(t.rows, tenantId)
  }

  /** Appending a row adds one to its own tenant's count and nothing to any other. */
  lemma {:induction false} CountAppend(rows: seq<Note>, n: Note, tenantId: Id)
    ensures CountIn(rows + [n], tenantId) == CountIn(rows, tenantId) + (if n.tenantId == tenantId then 1 else 0)
  {
    if |rows| > 0 {
      assert (rows + [n])[1..] == rows[1..] + [n];
      CountAppend(rows[1..], n, tenantId);
    }
  }

  /** Rewriting rows in place without moving them between tenants keeps every count. */
  lemma {:induction false} CountKeepsTenants(a: seq<Note>, b: seq<Note>, tenantId: Id)
    requires |a| == |b|
    requires forall i :: 0 <= i < |a| ==> a[i].tenantId == b[i].tenantId
    ensures CountIn(a, tenantId) == CountIn(b, tenantId)
  {
    if |a| > 0 {
      CountKeepsTenants(a[1..], b[1..], tenantId);
    }
  }

  /** Removing rows never raises a count. */
  lemma {:induction false} CountRemove(rows: seq<Note>, id: Id, scope: Scope, tenantId: Id)
    ensures CountIn(Remove(rows, id, scope), tenantId) <= CountIn(rows, tenantId)
  {
    if |rows| > 0 {
      var head, tail := rows[0], rows[1..];
      CountRemove(tail, id, scope, tenantId);
      var rest := Remove(tail, id, scope);
      if IsTarget(id, scope, head) {
        assert Remove(rows, id, scope) == rest;
      } else {
        var kept := [head] + rest;
        assert Remove(rows, id, scope) == kept;
        assert kept[0] == head && kept[1..] == rest;
      }
    }
  }
}

=== FILE: tenant_context.dfy ===
/**
 * The tenant-context middleware: `extractTenant` resolves the tenant a
 * request talks about, and `requireTenant` refuses to go on without one.
 */
module TenantContext {
  import opened Domain
  import opened Text
  import TenantStore

  const MsgTenantNotFound := "Tenant not found"
  const MsgTenantRequired := "Tenant context required"

  /** `req.params.slug || req.headers['x-tenant-slug']`: the path segment unless it is absent or empty. */
  function RequestedSlug(pathSlug: Option<string>, headerSlug: Option<string>): Option<string> {
    if Truthy(pathSlug) then pathSlug else headerSlug
  }

  /**
   * `extractTenant`: the tenant context (`req.tenant`) of a request, or the
   * 404 reply for a slug no tenant has. A slug, when given, decides the
   * context whoever the caller is; without one, the caller's own tenant is
   * the context when it exists, and otherwise there is none.
   */
  function ExtractTenant(pathSlug: Option<string>, headerSlug: Option<string>, user: Option<Identity>,
                         tenants: seq<Tenant>): (r: Result<Option<Tenant>>)
    ensures var slug := RequestedSlug(pathSlug, headerSlug);
      r.Err? <==> Truthy(slug) && forall x :: x in tenants ==> x.slug != slug.value
    ensures r.Err? ==> r.failure == Replied(404, MsgTenantNotFound)
    ensures var slug := RequestedSlug(pathSlug, headerSlug);
      r.Ok? && r.value.Some? ==>
        && r.value.value in tenants
        && (Truthy(slug) ==> r.value.value.slug == slug.value)
        && (!Truthy(slug) ==> user.Some? && r.value.value.id == user.value.tenantId)
    ensures var slug := RequestedSlug(pathSlug, headerSlug);
      r == Ok(None) <==>
        !Truthy(slug) && (user.None? || forall x :: x in tenants ==> x.id != user.value.tenantId)
  {
    var slug := RequestedSlug(pathSlug, headerSlug);
    if !Truthy(slug) && user.Some? && TenantStore.FindById(tenants, user.value.tenantId).Some? then
      Ok(TenantStore.FindById(tenants, user.value.tenantId))
    else if Truthy(slug) then
      match TenantStore.FindBySlug(tenants, slug.value)
      case None => Err(Replied(404, MsgTenantNotFound))
      case Some(t) => Ok(Some(t))
    else
      Ok(None)
  }

  /** A non-empty path slug takes precedence: the header is then never consulted. */
  lemma PathSlugWins(pathSlug: Option<string>, header1: Option<string>, header2: Option<string>,
                     user: Option<Identity>, tenants: seq<Tenant>)
    requires Truthy(pathSlug)
    ensures ExtractTenant(pathSlug, header1, user, tenants) == ExtractTenant(pathSlug, header2, user, tenants)
  {
  }

  /** A slug that resolves sets the context to that tenant, whatever the caller's own tenant is. */
  lemma SlugOverridesCaller(pathSlug: Option<string>, headerSlug: Option<string>,
                            user1: Option<Identity>, user2: Option<Identity>, tenants: seq<Tenant>)
    requires Truthy(RequestedSlug(pathSlug, headerSlug))
    ensures ExtractTenant(pathSlug, headerSlug, user1, tenants) == ExtractTenant(pathSlug, headerSlug, user2, tenants)
  {
  }

  /** `requireTenant`: the 400 reply exactly when no tenant context was set. */
  function RequireTenant(context: Option<Tenant>): (r: Result<Tenant>)
    ensures r.Err? <==> context.None?
    ensures r.Err? ==> r.failure == Replied(400, MsgTenantRequired) && StatusOf(r.failure) == 400
    ensures r.Ok? ==> context == Some(r.value)
  {
    match context
    case Some(t) => Ok(t)
    case None => Err(Replied(400, MsgTenantRequired))
  }
}

=== FILE: tenant_routes.dfy ===
/**
 * The tenants router: the plan upgrade and the usage statistics, both
 * admin-only and both bound to the caller's own organization.
 */
module TenantRoutes {
  import opened Domain
  import NoteStore
  import TenantStore
  import opened Database

  const MsgTenantNotFound := "Tenant not found"
  const MsgUpgradeOthers := "You can only upgrade your own organization"
  const MsgAlreadyPro := "Organization is already on Pro plan"
  const MsgStatsDenied := "Access denied"

  /** The `tenant` object of the upgrade response. */
  datatype UpgradedTenant = UpgradedTenant(
    id: Id, name: string, slug: string, plan: Plan, notesCount: nat, notesLimit: NotesLimit)

  /** Ids and slugs stay in place, and a pro row stays pro: no plan ever goes back to free. */
  predicate PlansOnlyRise(before: seq<Tenant>, after: seq<Tenant>) {
    && |after| == |before|
    && forall i :: 0 <= i < |before| ==>
         && after[i].id == before[i].id && after[i].slug == before[i].slug
         && (before[i].plan == Pro ==> after[i].plan == Pro)
  }

  /**
   * POST /tenants/:slug/upgrade. The checks run in order: admin role, the
   * slug names a tenant, that tenant is the caller's, it is not already on
   * pro. Only success changes anything, and then exactly the rows with the
   * tenant's id move to pro; the response reports a null limit.
   */
  function Upgrade(db: Db, who: Identity, slug: string, now: nat): (r: Reply<UpgradedTenant>)
    ensures r.db.users == db.users && r.db.notes == db.notes
    ensures r.result.Err? ==> r.db == db
    ensures who.role != Admin ==> r.result == Err(RoleRejected)
    ensures who.role == Admin && (forall x :: x in db.tenants ==> x.slug != slug) ==>
      r.result == Err(Thrown(NotFoundError, MsgTenantNotFound))
    ensures who.role == Admin && TenantStore.FindBySlug(db.tenants, slug).Some?
            && TenantStore.FindBySlug(db.tenants, slug).value.id != who.tenantId ==>
      r.result == Err(Thrown(AuthorizationError, MsgUpgradeOthers))
    ensures who.role == Admin && TenantStore.FindBySlug(db.tenants, slug).Some?
            && TenantStore.FindBySlug(db.tenants, slug).value.id == who.tenantId
            && TenantStore.FindBySlug(db.tenants, slug).value.plan == Pro ==>
      r.result == Err(Thrown(ConflictError, MsgAlreadyPro))
    ensures who.role == Admin && TenantStore.FindBySlug(db.tenants, slug).Some?
            && TenantStore.FindBySlug(db.tenants, slug).value.id == who.tenantId
            && TenantStore.FindBySlug(db.tenants, slug).value.plan == Free ==>
      r.result.Ok?
    ensures r.result.Ok? ==>
      && who.role == Admin
      && TenantStore.FindBySlug(db.tenants, slug).Some?
      && TenantStore.FindBySlug(db.tenants, slug).value.id == who.tenantId
      && TenantStore.FindBySlug(db.tenants, slug).value.plan == Free
      && |r.db.tenants| == |db.tenants|
      && (forall i :: 0 <= i < |db.tenants| && db.tenants[i].id != who.tenantId ==> r.db.tenants[i] == db.tenants[i])
      && (forall i :: 0 <= i < |db.tenants| && db.tenants[i].id == who.tenantId ==>
            r.db.tenants[i] == db.tenants[i].(plan := Pro, updatedAt := now))
      && r.result.value.id == who.tenantId && r.result.value.plan == Pro
      && r.result.value.name == TenantStore.FindById(db.tenants, who.tenantId).value.name
      && r.result.value.slug == TenantStore.FindById(db.tenants, who.tenantId).value.slug
      && r.result.value.notesCount == NoteStore.CountByTenant(db.notes, who.tenantId)
      && r.result.value.notesLimit == NullLimit
    ensures PlansOnlyRise(db.tenants, r.db.tenants)
  {
    if who.role != Admin then Reply(Err(RoleRejected), db)
    else
      match TenantStore.FindBySlug(db.tenants, slug)
      case None => Reply(Err(Thrown(NotFoundError, MsgTenantNotFound)), db)
      case Some(tenant) =>
        if who.tenantId != tenant.id then Reply(Err(Thrown(AuthorizationError, MsgUpgradeOthers)), db)
        else if tenant.plan == Pro then Reply(Err(Thrown(ConflictError, MsgAlreadyPro)), db)
        else Promote(db, tenant, now)
  }

  /**
   * The upgrade once every check has passed: each row with the tenant's id
   * moves to pro, and the response describes the first of them with the
   * tenant's note count and a null limit.
   */
  function Promote(db: Db, tenant: Tenant, now: nat): (r: Reply<UpgradedTenant>)
    requires tenant in db.tenants
    ensures r.db.users == db.users && r.db.notes == db.notes
    ensures |r.db.tenants| == |db.tenants|
    ensures forall i :: 0 <= i < |db.tenants| && db.tenants[i].id != tenant.id ==> r.db.tenants[i] == db.tenants[i]
    ensures forall i :: 0 <= i < |db.tenants| && db.tenants[i].id == tenant.id ==>
      r.db.tenants[i] == db.tenants[i].(plan := Pro, updatedAt := now)
    ensures r.result.Ok?
    ensures TenantStore.FindById(db.tenants, tenant.id).Some?
    ensures var first := TenantStore.FindById(db.tenants, tenant.id).value;
      r.result.value == UpgradedTenant(tenant.id, first.name, first.slug, Pro,
                                       NoteStore.CountByTenant(db.notes, tenant.id), NullLimit)
    ensures PlansOnlyRise(db.tenants, r.db.tenants)
  {
    var change := TenantStore.UpdateSubscription(db.tenants, tenant.id, Pro, now);
    var updated := change.result.value;
    var count := TenantStore.GetNotesCount(db.notes, tenant.id);
    Reply(Ok(UpgradedTenant(updated.id, updated.name, updated.slug, updated.plan, count, NullLimit)),
          db.(tenants := change.tenants))
  }

  /**
   * Under unique tenant ids the upgraded row is the one the slug named, so
   * the response carries that tenant's name and the requested slug.
   */
  lemma UpgradeReportsSlugTenant(db: Db, who: Identity, slug: string, now: nat)
    requires TenantStore.UniqueIds(db.tenants)
    requires Upgrade(db, who, slug, now).result.Ok?
    ensures Upgrade(db, who, slug, now).result.value.name == TenantStore.FindBySlug(db.tenants, slug).value.name
    ensures Upgrade(db, who, slug, now).result.value.slug == slug
  {
    var named := TenantStore.FindBySlug(db.tenants, slug).value;
    var first := TenantStore.FindById(db.tenants, who.tenantId).value;
    var i :| 0 <= i < |db.tenants| && db.tenants[i] == named;
    var k :| 0 <= k < |db.tenants| && db.tenants[k] == first;
    assert i == k;
  }

  /**
   * Upgrading twice: an admin's first upgrade of their own free tenant
   * succeeds, and the second meets the already-pro conflict.
   */
  lemma UpgradeTwice(db: Db, who: Identity, slug: string, now1: nat, now2: nat)
    requires who.role == Admin
    requires TenantStore.FindBySlug(db.tenants, slug).Some?
    requires TenantStore.FindBySlug(db.tenants, slug).value.id == who.tenantId
    requires TenantStore.FindBySlug(db.tenants, slug).value.plan == Free
    ensures Upgrade(db, who, slug, now1).result.Ok?
    ensures var once := Upgrade(db, who, slug, now1).db;
      Upgrade(once, who, slug, now2) == Reply(Err(Thrown(ConflictError, MsgAlreadyPro)), once)
  {
    var once := Upgrade(db, who, slug, now1).db;
    TenantStore.FirstIndexFollowsMatches(db.tenants, once.tenants, TenantStore.BySlug(slug));
  }

  /** The `stats` object: the tenant's descriptive fields, its usage, and whether an upgrade is on offer. */
  datatype TenantStats = TenantStats(
    name: string, slug: string, plan: Plan, createdAt: nat,
    notesCount: nat, notesLimit: NotesLimit, canUpgrade: bool)

  /**
   * GET /tenants/:slug/stats. The same role, not-found and ownership checks
   * as the upgrade, in the same order; then the tenant's note count, the
   * limit as 3 or "unlimited", and an upgrade offer exactly on the free plan.
   */
  function Stats(db: Db, who: Identity, slug: string): (r: Result<TenantStats>)
    ensures who.role != Admin ==> r == Err(RoleRejected)
    ensures who.role == Admin && (forall x :: x in db.tenants ==> x.slug != slug) ==>
      r == Err(Thrown(NotFoundError, MsgTenantNotFound))
    ensures who.role == Admin && TenantStore.FindBySlug(db.tenants, slug).Some?
            && TenantStore.FindBySlug(db.tenants, slug).value.id != who.tenantId ==>
      r == Err(Thrown(AuthorizationError, MsgStatsDenied))
    ensures who.role == Admin && TenantStore.FindBySlug(db.tenants, slug).Some?
            && TenantStore.FindBySlug(db.tenants, slug).value.id == who.tenantId ==>
      r.Ok?
    ensures r.Ok? ==>
      && who.role == Admin
      && TenantStore.FindBySlug(db.tenants, slug).Some?
      && var t := TenantStore.FindBySlug(db.tenants, slug).value;
         && t.id == who.tenantId
         && r.value.name == t.name && r.value.plan == t.plan && r.value.createdAt == t.createdAt
    ensures r.Ok? ==> r.value.slug == slug
    ensures r.Ok? ==> r.value.notesCount == NoteStore.CountByTenant(db.notes, who.tenantId)
    ensures r.Ok? ==> (r.value.canUpgrade <==> r.value.plan == Free)
    ensures r.Ok? ==> r.value.notesLimit == (if r.value.plan == Free then Capped(3) else UnlimitedText)
  {
    if who.role != Admin then Err(RoleRejected)
    else
      match TenantStore.FindBySlug(db.tenants, slug)
      case None => Err(Thrown(NotFoundError, MsgTenantNotFound))
      case Some(tenant) =>
        if who.tenantId != tenant.id then Err(Thrown(AuthorizationError, MsgStatsDenied))
        else
          var count := TenantStore.GetNotesCount(db.notes, tenant.id);
          Ok(TenantStats(
            tenant.name, tenant.slug, tenant.plan, tenant.createdAt, count,
            if tenant.plan == Free then Capped(FreeNoteLimit) else UnlimitedText,
            tenant.plan == Free))
  }
}

=== FILE: tenant_store.dfy ===
/**
 * The tenants table and the four queries of the Tenant model. Lookups
 * return the first matching row (`result.rows[0]`).
 */
module TenantStore {
  import opened Domain
  import NoteStore

  /** The primary-key invariant: no two tenant rows share an id. */
  predicate UniqueIds(tenants: seq<Tenant>) {
    forall i, j :: 0 <= i < j < |tenants| ==> tenants[i].id != tenants[j].id
  }

  /** What a lookup matches a tenant row by: its slug or its id. */
  datatype Key = BySlug(slug: string) | ById(id: Id)

  predicate Matches(t: Tenant, key: Key) {
    match key
    case BySlug(slug) => t.slug == slug
    case ById(id) => t.id == id
  }

  /** The position of the first tenant the key matches, or the table length when none does. */
  function FirstIndex(tenants: seq<Tenant>, key: Key): (i: nat)
    ensures i <= |tenants|
    ensures forall j :: 0 <= j < i ==> !Matches(tenants[j], key)
    ensures i < |tenants| ==> Matches(tenants[i], key)
  {
    if |tenants| == 0 then 0
    else if Matches(tenants[0], key) then 0
    else 1 + FirstIndex(tenants[1..], key)
  }

  /** `Tenant.findBySlug`: a tenant whose slug is exactly `slug`, or nothing when no row has it. */
  function FindBySlug(tenants: seq<Tenant>, slug: string): (r: Option<Tenant>)
    ensures r.Some? ==> r.value in tenants && r.value.slug == slug
    ensures r.None? <==> forall x :: x in tenants ==> x.slug != slug
  {
    var i := FirstIndex(tenants, BySlug(slug));
    if i < |tenants| then Some(tenants[i]) else None
  }

  /** `Tenant.findById`: the tenant with that id, or nothing when no row has it. */
  function FindById(tenants: seq<Tenant>, id: Id): (r: Option<Tenant>)
    ensures r.Some? ==> r.value in tenants && r.value.id == id
    ensures r.None? <==> forall x :: x in tenants ==> x.id != id
  {
    var i := FirstIndex(tenants, ById(id));
    if i < |tenants| then Some(tenants[i]) else None
  }

  /** Two tables whose rows the key matches in the same places find it at the same position. */
  lemma {:induction false} FirstIndexFollowsMatches(a: seq<Tenant>, b: seq<Tenant>, key: Key)
    requires |a| == |b|
    requires forall i :: 0 <= i < |a| ==> (Matches(a[i], key) <==> Matches(b[i], key))
    ensures FirstIndex(a, key) == FirstIndex(b, key)
    decreases |a|
  {
    if |a| > 0 && !Matches(a[0], key) {
      assert forall i :: 0 <= i < |a| - 1 ==> a[1..][i] == a[i + 1] && b[1..][i] == b[i + 1];
      FirstIndexFollowsMatches(a[1..], b[1..], key);
    }
  }

  /** The tenants table after an update, and the first updated row. */
  datatype TenantChange = TenantChange(tenants: seq<Tenant>, result: Option<Tenant>)

  /**
   * `Tenant.updateSubscription`: every row with the id gets the plan and a
   * new `updated_at`; no other field and no other row changes.
   */
  function UpdateSubscription(tenants: seq<Tenant>, id: Id, plan: Plan, now: nat): (r: TenantChange)
    ensures |r.tenants| == |tenants|
    ensures forall i :: 0 <= i < |tenants| && tenants[i].id != id ==> r.tenants[i] == tenants[i]
    ensures forall i :: 0 <= i < |tenants| && tenants[i].id == id ==>
      r.tenants[i] == tenants[i].(plan := plan, updatedAt := now)
    ensures r.result.Some? <==> exists x :: x in tenants && x.id == id
    ensures r.result.Some? ==> r.result.value in r.tenants && r.result.value.id == id && r.result.value.plan == plan
    ensures r.result.Some? ==> r.result.value == FindById(tenants, id).value.(plan := plan, updatedAt := now)
  {
    var rows := seq(|tenants|, i requires 0 <= i < |tenants| =>
                      if tenants[i].id == id then tenants[i].(plan := plan, updatedAt := now) else tenants[i]);
    var k := FirstIndex(tenants, ById(id));
    if k < |tenants| then TenantChange(rows, Some(rows[k]))
    else TenantChange(rows, None)
  }

  /** `Tenant.getNotesCount`: the same count as `Note.countByTenant`. */
  function GetNotesCount(notes: NoteStore.NoteTable, tenantId: Id): (c: nat)
    ensures c == NoteStore.CountByTenant(notes, tenantId)
  {
    |NoteStore.Select(notes.rows, NoteStore.WholeTenant(tenantId))|
  }
}

=== FILE: text.dfy ===
/**
 * The JavaScript string primitives the backend relies on: `String.prototype.trim`,
 * `toLowerCase` on e-mail addresses, and `length`, which counts UTF-16 code units.
 */
module Text {
  import opened Domain

  /** JavaScript truthiness of an optional string: present and not empty. */
  predicate Truthy(s: Option<string>) {
    s.Some? && |s.value| > 0
  }

  /** The ECMAScript WhiteSpace and LineTerminator code points, the set `trim` strips. */
  predicate IsJsWhitespace(c: char) {
    || c == '\t' || c == '\n' || c == '\U{000B}' || c == '\U{000C}' || c == '\r'
    || c == ' ' || c == '\U{00A0}' || c == '\U{1680}'
    || ('\U{2000}' <= c <= '\U{200A}')
    || c == '\U{2028}' || c == '\U{2029}' || c == '\U{202F}' || c == '\U{205F}'
    || c == '\U{3000}' || c == '\U{FEFF}'
  }

  predicate AllWhitespace(s: string) {
    forall i :: 0 <= i < |s| ==> IsJsWhitespace(s[i])
  }

  /** `s.trimStart()`: the suffix left after dropping leading whitespace. */
  function TrimStart(s: string): (r: string)
    ensures |r| <= |s| && r == s[|s| - |r|..]
    ensures AllWhitespace(s[..|s| - |r|])
    ensures |r| > 0 ==> !IsJsWhitespace(r[0])
  {
    if |s| > 0 && IsJsWhitespace(s[0]) then TrimStart(s[1..]) else s
  }

  /** `s.trimEnd()`: the prefix left after dropping trailing whitespace. */
  function TrimEnd(s: string): (r: string)
    ensures |r| <= |s| && r == s[..|r|]
    ensures AllWhitespace(s[|r|..])
    ensures |r| > 0 ==> !IsJsWhitespace(r[|r| - 1])
  {
    if |s| > 0 && IsJsWhitespace(s[|s| - 1]) then TrimEnd(s[..|s| - 1]) else s
  }

  /**
   * `s.trim()`: the longest infix of `s` that neither starts nor ends with
   * whitespace; everything cut away on either side is whitespace, and the
   * result is empty exactly when `s` is blank.
   */
  function Trim(s: string): (r: string)
    ensures |r| <= |s|
    ensures |r| > 0 ==> !IsJsWhitespace(r[0]) && !IsJsWhitespace(r[|r| - 1])
    ensures |r| == 0 <==> AllWhitespace(s)
  {
    TrimBlank(s);
    TrimEnd(TrimStart(s))
  }

  /** `r` is the infix of `s` starting at `lead`, with only whitespace before and after it. */
  predicate WhitespaceAround(s: string, lead: nat, r: string) {
    && lead + |r| <= |s| && r == s[lead..lead + |r|]
    && AllWhitespace(s[..lead]) && AllWhitespace(s[lead + |r|..])
  }

  /** What `trim` removes is whitespace on both sides of an infix of `s`. */
  lemma TrimIsInfix(s: string)
    ensures WhitespaceAround(s, |s| - |TrimStart(s)|, Trim(s))
  {
    var front := TrimStart(s);
    var r := TrimEnd(front);
    CutsCompose(s, front, r);
  }

  /**
   * Cutting a whitespace prefix and then a whitespace suffix leaves an
   * infix with whitespace on both sides of it.
   */
  lemma CutsCompose(s: string, front: string, r: string)
    requires |front| <= |s| && front == s[|s| - |front|..] && AllWhitespace(s[..|s| - |front|])
    requires |r| <= |front| && r == front[..|r|] && AllWhitespace(front[|r|..])
    ensures WhitespaceAround(s, |s| - |front|, r)
  {
    var lead := |s| - |front|;
    assert front[|r|..] == s[lead + |r|..];
  }

  lemma TrimBlank(s: string)
    ensures |TrimEnd(TrimStart(s))| == 0 <==> AllWhitespace(s)
  {
    var front := TrimStart(s);
    var r := TrimEnd(front);
    var lead := |s| - |front|;
    if |r| == 0 {
      forall i | 0 <= i < |s| ensures IsJsWhitespace(s[i]) {
        assert s[i] == s[..lead][i];
      }
    }
  }

  /** Trimming is idempotent: what `trim` returns has nothing left to strip. */
  lemma TrimIdempotent(s: string)
    ensures Trim(Trim(s)) == Trim(s)
  {
    var r := Trim(s);
    if |r| > 0 {
      assert TrimStart(r) == r;
      assert TrimEnd(r) == r;
    }
  }

  /** Lower-cases the ASCII letters and leaves every other character alone. */
  function AsciiLowerChar(c: char): char {
    if 'A' <= c <= 'Z' then (c as int + 32) as char else c
  }

  /** `s.toLowerCase()` restricted to ASCII: each capital becomes its small letter, nothing else moves. */
  function AsciiLower(s: string): (r: string)
    ensures |r| == |s|
    ensures forall i :: 0 <= i < |r| ==> !('A' <= r[i] <= 'Z')
    ensures forall i :: 0 <= i < |s| && !('A' <= s[i] <= 'Z') ==> r[i] == s[i]
    ensures forall i :: 0 <= i < |s| && 'A' <= s[i] <= 'Z' ==> r[i] as int == s[i] as int + 32
  {
    seq(|s|, i requires 0 <= i < |s| => AsciiLowerChar(s[i]))
  }

  /** The code units a character takes in UTF-16: two for the supplementary planes. */
  function Utf16Width(c: char): nat {
    if c as int >= 0x1_0000 then 2 else 1
  }

  /**
   * `s.length` in JavaScript, the number of UTF-16 code units; it lies
   * between the number of characters and twice that, and equals the former
   * for text in the Basic Multilingual Plane.
   */
  function Utf16Length(s: string): (n: nat)
    ensures |s| <= n <= 2 * |s|
    ensures (forall i :: 0 <= i < |s| ==> s[i] as int < 0x1_0000) ==> n == |s|
  {
    if |s| == 0 then 0 else Utf16Width(s[0]) + Utf16Length(s[1..])
  }

  /** UTF-16 length adds up over concatenation. */
  lemma {:induction false} Utf16LengthAppend(a: string, b: string)
    ensures Utf16Length(a + b) == Utf16Length(a) + Utf16Length(b)
  {
    if |a| == 0 {
      assert a + b == b;
    } else {
      assert (a + b)[0] == a[0];
      assert (a + b)[1..] == a[1..] + b;
      Utf16LengthAppend(a[1..], b);
    }
  }
}

=== FILE: user_routes.dfy ===
/**
 * The users router: an admin invites a new account into their own tenant.
 * The password is a fixed default, hashed by an outside function `hash`.
 */
module UserRoutes {
  import opened Domain
  import opened Text
  import UserStore
  import Validation
  import AuthRoutes
  import opened Database

  const MsgEmailRequired := "Email is required"
  const MsgUserExists := "User already exists"
  const DefaultPassword := "defaultpassword"

  /** The `email` and `role` of an invite body; the role defaults to member. */
  datatype InviteBody = InviteBody(email: Option<string>, role: Option<Role>)

  /** The `user` object of the invite response. */
  datatype InvitedUser = InvitedUser(id: Id, email: string, role: Role)

  /**
   * POST /users/invite as written. Checks in order: admin role, an e-mail
   * given, no account with exactly that e-mail; then a new account in the
   * inviter's tenant with that e-mail as given, the default password and
   * the requested role. Nothing but the users table changes, and only on
   * success.
   */
  function Invite(db: Db, who: Identity, body: InviteBody, hash: string -> string, now: nat): (r: Reply<InvitedUser>)
    ensures r.db.tenants == db.tenants && r.db.notes == db.notes
    ensures r.result.Err? ==> r.db == db
    ensures who.role != Admin ==> r.result == Err(RoleRejected)
    ensures who.role == Admin && !Truthy(body.email) ==> r.result == Err(Thrown(ValidationError, MsgEmailRequired))
    ensures who.role == Admin && Truthy(body.email) && (exists u :: u in db.users.rows && u.email == body.email.value) ==>
      r.result == Err(Replied(409, MsgUserExists))
    ensures r.result.Ok? ==> InvitedAs(db, r.db, who, body.email.value, body.role, hash, r.result.value)
    ensures r.result.Ok? <==>
      who.role == Admin && Truthy(body.email) && forall u :: u in db.users.rows ==> u.email != body.email.value
    ensures UserStore.Valid(db.users) ==> UserStore.Valid(r.db.users)
  {
    if who.role != Admin then Reply(Err(RoleRejected), db)
    else if !Truthy(body.email) then Reply(Err(Thrown(ValidationError, MsgEmailRequired)), db)
    else Admit(db, who, body.email.value, body.role, hash, now)
  }

  /**
   * The account an invite leaves behind: appended after the existing ones,
   * in the inviter's tenant, under the stored e-mail, with the default
   * password hashed and the requested role or member.
   */
  predicate InvitedAs(db: Db, after: Db, who: Identity, email: string, role: Option<Role>,
                      hash: string -> string, invited: InvitedUser)
  {
    && |after.users.rows| == |db.users.rows| + 1
    && after.users.rows[..|db.users.rows|] == db.users.rows
    && var stored := after.users.rows[|db.users.rows|];
       && stored.id == invited.id && stored.email == email && invited.email == email
       && stored.tenantId == who.tenantId
       && stored.passwordHash == hash(DefaultPassword)
       && stored.role == invited.role
       && invited.role == (if role.Some? then role.value else Member)
       && (UserStore.Valid(db.users) ==> forall u :: u in db.users.rows ==> u.id != invited.id)
  }

  /** The duplicate check and the insert, once the body has supplied an e-mail. */
  function Admit(db: Db, who: Identity, email: string, role: Option<Role>, hash: string -> string, now: nat): (r: Reply<InvitedUser>)
    ensures r.db.tenants == db.tenants && r.db.notes == db.notes
    ensures r.result.Err? ==> r.db == db && r.result == Err(Replied(409, MsgUserExists))
    ensures r.result.Ok? <==> forall u :: u in db.users.rows ==> u.email != email
    ensures r.result.Ok? ==> InvitedAs(db, r.db, who, email, role, hash, r.result.value)
    ensures UserStore.Valid(db.users) ==> UserStore.Valid(r.db.users)
  {
    if UserStore.FindByEmail(db.users, email).Some? then Reply(Err(Replied(409, MsgUserExists)), db)
    else
      var change := UserStore.Create(db.users, who.tenantId, email, DefaultPassword, role, hash, now);
      Reply(Ok(InvitedUser(change.created.id, change.created.email, change.created.role)),
            db.(users := change.table))
  }

  /**
   * An invited address with a capital letter is locked out: no login with
   * that address finds the new account, whatever the password, because the
   * login looks accounts up by the lower-cased address.
   */
  lemma MixedCaseInviteLocksOut(db: Db, who: Identity, body: InviteBody, hash: string -> string, now: nat,
                                password: Option<string>, verify: (string, string) -> bool)
    requires who.role == Admin && Truthy(body.email)
    requires forall u :: u in db.users.rows ==> u.email != body.email.value
    requires exists i :: 0 <= i < |body.email.value| && 'A' <= body.email.value[i] <= 'Z'
    requires forall u :: u in db.users.rows ==> u.email != AuthRoutes.LoginKey(body.email.value)
    ensures var after := Invite(db, who, body, hash, now).db;
      var login := Validation.LoginBody(body.email, password);
      && AuthRoutes.Login(after, login, verify).Err?
      && (Validation.ValidateLogin(login).Ok? ==>
            AuthRoutes.Login(after, login, verify) == Err(Thrown(AuthenticationError, AuthRoutes.MsgBadCredentials)))
  {
    var e := body.email.value;
    KeyHasNoCapitals(e);
    var after := Invite(db, who, body, hash, now).db;
    assert after.users.rows == db.users.rows + [after.users.rows[|db.users.rows|]];
  }

  /** The login key of an address with a capital letter differs from the address. */
  lemma KeyHasNoCapitals(e: string)
    requires exists i :: 0 <= i < |e| && 'A' <= e[i] <= 'Z'
    ensures AuthRoutes.LoginKey(e) != e
  {
    var i :| 0 <= i < |e| && 'A' <= e[i] <= 'Z';
    var low := AsciiLower(e);
    TrimIsInfix(low);
  }

  /**
   * A concrete instance: "Bob@acme.test", invited by an admin into an empty
   * users table, cannot log in under that address, whatever the password.
   */
  lemma MixedCaseInviteExample(db: Db, who: Identity, hash: string -> string, verify: (string, string) -> bool,
                               now: nat, password: Option<string>)
    requires who.role == Admin && |db.users.rows| == 0
    ensures var body := InviteBody(Some("Bob@acme.test"), None);
      && Invite(db, who, body, hash, now).result.Ok?
      && AuthRoutes.Login(Invite(db, who, body, hash, now).db,
                          Validation.LoginBody(Some("Bob@acme.test"), password), verify).Err?
  {
    var body := InviteBody(Some("Bob@acme.test"), None);
    assert body.email.value[0] == 'B';
    MixedCaseInviteLocksOut(db, who, body, hash, now, password, verify);
  }

  /** The default password passes the login's length check. */
  lemma DefaultPasswordIsLongEnough()
    ensures Utf16Length(DefaultPassword) >= Validation.PasswordMinLength
  {
    assert forall i :: 0 <= i < |DefaultPassword| ==> DefaultPassword[i] as int < 0x1_0000;
  }

  /**
   * The invite with the address normalised the way the login normalises
   * it: lower-cased and trimmed, both for the duplicate check and for the
   * stored account.
   */
  function InviteNormalized(db: Db, who: Identity, body: InviteBody, hash: string -> string, now: nat): (r: Reply<InvitedUser>)
    ensures r.db.tenants == db.tenants && r.db.notes == db.notes
    ensures r.result.Err? ==> r.db == db
    ensures who.role != Admin ==> r.result == Err(RoleRejected)
    ensures who.role == Admin && !Truthy(body.email) ==> r.result == Err(Thrown(ValidationError, MsgEmailRequired))
    ensures r.result.Ok? ==> InvitedAs(db, r.db, who, AuthRoutes.LoginKey(body.email.value), body.role, hash, r.result.value)
    ensures r.result.Ok? <==>
      && who.role == Admin && Truthy(body.email)
      && forall u :: u in db.users.rows ==> u.email != AuthRoutes.LoginKey(body.email.value)
    ensures UserStore.Valid(db.users) ==> UserStore.Valid(r.db.users)
  {
    if who.role != Admin then Reply(Err(RoleRejected), db)
    else if !Truthy(body.email) then Reply(Err(Thrown(ValidationError, MsgEmailRequired)), db)
    else Admit(db, who, AuthRoutes.LoginKey(body.email.value), body.role, hash, now)
  }

  /**
   * With the normalised invite, the new account can log in with the address
   * it was invited under and the default password, and the session is that
   * account's, in the inviter's tenant.
   */
  lemma InvitedUserCanLogIn(db: Db, who: Identity, body: InviteBody, hash: string -> string,
                            verify: (string, string) -> bool, now: nat)
    requires who.role == Admin && Truthy(body.email)
    requires forall u :: u in db.users.rows ==> u.email != AuthRoutes.LoginKey(body.email.value)
    requires '@' in body.email.value
    requires verify(DefaultPassword, hash(DefaultPassword))
    requires exists t :: t in db.tenants && t.id == who.tenantId
    ensures var reply := InviteNormalized(db, who, body, hash, now);
      var session := AuthRoutes.Login(reply.db, Validation.LoginBody(body.email, Some(DefaultPassword)), verify);
      && session.Ok?
      && session.value.claims.userId == reply.result.value.id
      && session.value.claims.tenantId == who.tenantId
  {
    var reply := InviteNormalized(db, who, body, hash, now);
    var key := AuthRoutes.LoginKey(body.email.value);
    var newcomer := reply.db.users.rows[|db.users.rows|];
    assert reply.db.users.rows == db.users.rows + [newcomer];
    DefaultPasswordIsLongEnough();
    OnlyAccountWithKey(db.users.rows, newcomer, key, reply.db.users.nextId);
    var login := Validation.LoginBody(body.email, Some(DefaultPassword));
    assert Validation.ValidateLogin(login).Ok?;
    AuthRoutes.LoginSucceeds(reply.db, login, verify, newcomer);
  }

  /** An account appended under an e-mail no earlier account has is the one a lookup by that e-mail finds. */
  lemma OnlyAccountWithKey(rows: seq<User>, newcomer: User, key: string, nextId: Id)
    requires newcomer.email == key
    requires forall u :: u in rows ==> u.email != key
    ensures UserStore.FindByEmail(UserStore.UserTable(rows + [newcomer], nextId), key) == Some(newcomer)
  {
    var found := UserStore.FindByEmail(UserStore.UserTable(rows + [newcomer], nextId), key);
    assert newcomer in rows + [newcomer];
    assert found.Some?;
  }
}

=== FILE: user_store.dfy ===
/**
 * The users table and the User model's lookup and insert. Hashing the
 * password is the job of an outside hasher, passed in as `hash`.
 */
module UserStore {
  import opened Domain

  /** The users table; `nextId` stands for the database's fresh-id source. */
  datatype UserTable = UserTable(rows: seq<User>, nextId: Id)

  /** The primary-key invariant: ids are distinct and all below `nextId`. */
  predicate Valid(t: UserTable) {
    && (forall i :: 0 <= i < |t.rows| ==> t.rows[i].id < t.nextId)
    && (forall i, j :: 0 <= i < j < |t.rows| ==> t.rows[i].id != t.rows[j].id)
  }

  /** `User.findByEmail`: a user whose stored e-mail equals `email` character for character, or nothing. */
  function FindByEmail(t: UserTable, email: string): (r: Option<User>)
    ensures r.Some? ==> r.value in t.rows && r.value.email == email
    ensures r.None? <==> forall u :: u in t.rows ==> u.email != email
  {
    FirstWithEmail(t.rows, email)
  }

  function FirstWithEmail(rows: seq<User>, email: string): (r: Option<User>)
    ensures r.Some? ==> r.value in rows && r.value.email == email
    ensures r.None? <==> forall u :: u in rows ==> u.email != email
  {
    if |rows| == 0 then None
    else if rows[0].email == email then Some(rows[0])
    else FirstWithEmail(rows[1..], email)
  }

  /** The columns `User.create` returns: everything but the password hash. */
  datatype PublicUser = PublicUser(id: Id, tenantId: Id, email: string, role: Role, createdAt: nat)

  function Public(u: User): PublicUser {
    PublicUser(u.id, u.tenantId, u.email, u.role, u.createdAt)
  }

  datatype UserChange = UserChange(table: UserTable, created: PublicUser)

  /**
   * `User.create`: stores the tenant, e-mail, hashed password and role
   * (member when none is given) under a fresh id, and returns the row
   * without its hash.
   */
  function Create(t: UserTable, tenantId: Id, email: string, password: string, role: Option<Role>,
                  hash: string -> string, now: nat): (r: UserChange)
    ensures |r.table.rows| == |t.rows| + 1 && r.table.rows[..|t.rows|] == t.rows
    ensures var stored := r.table.rows[|t.rows|];
      && stored.tenantId == tenantId && stored.email == email
      && stored.passwordHash == hash(password)
      && r.created == Public(stored)
    ensures r.created.role == (if role.Some? then role.value else Member)
    ensures Valid(t) ==> Valid(r.table) && (forall u :: u in t.rows ==> u.id != r.created.id)
  {
    var given := if role.Some? then role.value else Member;
    var u := User(t.nextId, tenantId, email, hash(password), given, now);
    UserChange(UserTable(t.rows + [u], t.nextId + 1), Public(u))
  }
}

=== FILE: validation.dfy ===
/**
 * The request-body validators: note bodies, login bodies and UUID-shaped
 * path parameters. Each check either passes the request on or throws a
 * ValidationError whose message names the first check that failed.
 */
module Validation {
  import opened Domain
  import opened Text

  const TitleMaxLength: nat := 255
  const ContentMaxLength: nat := 10000

  const MsgNoteRequired := "Title and content are required"
  const MsgTitleEmpty := "Title cannot be empty"
  const MsgTitleTooLong := "Title must be less than 255 characters"
  const MsgContentEmpty := "Content cannot be empty"
  const MsgContentTooLong := "Content must be less than 10,000 characters"

  /** The `title` and `content` of a request body; a field may be absent. */
  datatype NoteBody = NoteBody(title: Option<string>, content: Option<string>)

  /** The raw, untrimmed strings of a note body that passed validation. */
  datatype NoteInput = NoteInput(title: string, content: string)

  function Invalid<T>(message: string): Result<T> {
    Err(Thrown(ValidationError, message))
  }

  /**
   * What an accepted note body looks like: both fields present, each with a
   * character that is not whitespace, and each within its bound counted in
   * UTF-16 code units on the raw string.
   */
  predicate WellFormedNote(body: NoteBody) {
    && body.title.Some? && body.content.Some?
    && !AllWhitespace(body.title.value) && Utf16Length(body.title.value) <= TitleMaxLength
    && !AllWhitespace(body.content.value) && Utf16Length(body.content.value) <= ContentMaxLength
  }

  /**
   * `validateNote`. It accepts exactly the well-formed bodies, handing the
   * raw strings on, and otherwise reports the first failing check in the
   * order: both required, title blank, title long, content blank, content long.
   */
  function ValidateNote(body: NoteBody): (r: Result<NoteInput>)
    ensures r.Ok? <==> WellFormedNote(body)
    ensures r.Ok? ==> r.value == NoteInput(body.title.value, body.content.value)
    ensures r.Err? ==> r.failure.Thrown? && r.failure.kind == ValidationError
    ensures r == Invalid(MsgNoteRequired) <==> !Truthy(body.title) || !Truthy(body.content)
    ensures r == Invalid(MsgTitleEmpty) <==>
      Truthy(body.title) && Truthy(body.content) && AllWhitespace(body.title.value)
    ensures r == Invalid(MsgTitleTooLong) <==>
      && Truthy(body.title) && Truthy(body.content) && !AllWhitespace(body.title.value)
      && Utf16Length(body.title.value) > TitleMaxLength
    ensures r == Invalid(MsgContentEmpty) <==>
      && Truthy(body.title) && Truthy(body.content) && !AllWhitespace(body.title.value)
      && Utf16Length(body.title.value) <= TitleMaxLength && AllWhitespace(body.content.value)
    ensures r == Invalid(MsgContentTooLong) <==>
      && Truthy(body.title) && Truthy(body.content) && !AllWhitespace(body.title.value)
      && Utf16Length(body.title.value) <= TitleMaxLength && !AllWhitespace(body.content.value)
      && Utf16Length(body.content.value) > ContentMaxLength
  {
    if !Truthy(body.title) || !Truthy(body.content) then Invalid(MsgNoteRequired)
    else if |Trim(body.title.value)| == 0 then Invalid(MsgTitleEmpty)
    else if Utf16Length(body.title.value) > TitleMaxLength then Invalid(MsgTitleTooLong)
    else if |Trim(body.content.value)| == 0 then Invalid(MsgContentEmpty)
    else if Utf16Length(body.content.value) > ContentMaxLength then Invalid(MsgContentTooLong)
    else Ok(NoteInput(body.title.value, body.content.value))
  }

  /**
   * What the handlers store from an accepted body fits the data model:
   * the trimmed title has 1 to 255 code units, the trimmed content 1 to 10000.
   */
  lemma AcceptedNoteFitsColumns(body: NoteBody)
    requires ValidateNote(body).Ok?
    ensures 0 < |Trim(body.title.value)| && Utf16Length(Trim(body.title.value)) <= TitleMaxLength
    ensures 0 < |Trim(body.content.value)| && Utf16Length(Trim(body.content.value)) <= ContentMaxLength
  {
    TrimNoLonger(body.title.value);
    TrimNoLonger(body.content.value);
  }

  /** Trimming never adds UTF-16 code units. */
  lemma TrimNoLonger(s: string)
    ensures Utf16Length(Trim(s)) <= Utf16Length(s)
  {
    TrimStartNoLonger(s);
    TrimEndNoLonger(TrimStart(s));
  }

  lemma {:induction false} TrimStartNoLonger(s: string)
    ensures Utf16Length(TrimStart(s)) <= Utf16Length(s)
  {
    if |s| > 0 && IsJsWhitespace(s[0]) {
      TrimStartNoLonger(s[1..]);
    }
  }

  lemma {:induction false} TrimEndNoLonger(s: string)
    ensures Utf16Length(TrimEnd(s)) <= Utf16Length(s)
  {
    if |s| > 0 && IsJsWhitespace(s[|s| - 1]) {
      var init := s[..|s| - 1];
      TrimEndNoLonger(init);
      assert s == init + [s[|s| - 1]];
      Utf16LengthAppend(init, [s[|s| - 1]]);
    }
  }

  const MsgLoginRequired := "Email and password are required"
  const MsgEmailFormat := "Invalid email format"
  const MsgPasswordShort := "Password must be at least 6 characters"
  const PasswordMinLength: nat := 6

  datatype LoginBody = LoginBody(email: Option<string>, password: Option<string>)

  datatype Credentials = Credentials(email: string, password: string)

  /**
   * `validateLogin`: accepts exactly when both fields are present and
   * non-empty, the e-mail contains '@' and the password has at least six
   * UTF-16 code units; otherwise the first failing check names the error.
   */
  function ValidateLogin(body: LoginBody): (r: Result<Credentials>)
    ensures r.Ok? <==>
      && Truthy(body.email) && Truthy(body.password)
      && '@' in body.email.value && Utf16Length(body.password.value) >= PasswordMinLength
    ensures r.Ok? ==> r.value == Credentials(body.email.value, body.password.value)
    ensures r == Invalid(MsgLoginRequired) <==> !Truthy(body.email) || !Truthy(body.password)
    ensures r == Invalid(MsgEmailFormat) <==>
      Truthy(body.email) && Truthy(body.password) && '@' !in body.email.value
    ensures r == Invalid(MsgPasswordShort) <==>
      && Truthy(body.email) && Truthy(body.password) && '@' in body.email.value
      && Utf16Length(body.password.value) < PasswordMinLength
  {
    if !Truthy(body.email) || !Truthy(body.password) then Invalid(MsgLoginRequired)
    else if '@' !in body.email.value then Invalid(MsgEmailFormat)
    else if Utf16Length(body.password.value) < PasswordMinLength then Invalid(MsgPasswordShort)
    else Ok(Credentials(body.email.value, body.password.value))
  }

  predicate IsHexDigit(c: char) {
    ('0' <= c <= '9') || ('a' <= c <= 'f') || ('A' <= c <= 'F')
  }

  predicate AllHex(s: string) {
    forall i :: 0 <= i < |s| ==> IsHexDigit(s[i])
  }

  predicate IsVersionDigit(c: char) {
    '1' <= c <= '5'
  }

  predicate IsVariantDigit(c: char) {
    c == '8' || c == '9' || c == 'a' || c == 'b' || c == 'A' || c == 'B'
  }

  /**
   * The UUID pattern of `validateUUID`, group by group: 8-4-4-4-12 hex
   * digits separated by hyphens, the third group opening with a version
   * digit 1-5 and the fourth with a variant digit 8, 9, a or b, letters in
   * either case, and nothing before or after.
   */
  predicate UuidPattern(s: string) {
    && |s| == 36
    && AllHex(s[0..8]) && s[8] == '-'
    && AllHex(s[9..13]) && s[13] == '-'
    && IsVersionDigit(s[14]) && AllHex(s[15..18]) && s[18] == '-'
    && IsVariantDigit(s[19]) && AllHex(s[20..23]) && s[23] == '-'
    && AllHex(s[24..36])
  }

  /** The character class the pattern puts at position `k` of a 36-character string. */
  predicate FitsAt(k: int, c: char) {
    if k == 8 || k == 13 || k == 18 || k == 23 then c == '-'
    else if k == 14 then IsVersionDigit(c)
    else if k == 19 then IsVariantDigit(c)
    else IsHexDigit(c)
  }

  lemma PatternByPosition(s: string)
    requires |s| == 36
    ensures UuidPattern(s) <==> forall k :: 0 <= k < 36 ==> FitsAt(k, s[k])
  {
    if forall k :: 0 <= k < 36 ==> FitsAt(k, s[k]) {
      assert forall k :: 0 <= k < 8 ==> s[0..8][k] == s[k];
      assert forall k :: 0 <= k < 4 ==> s[9..13][k] == s[k + 9];
      assert forall k :: 0 <= k < 3 ==> s[15..18][k] == s[k + 15];
      assert forall k :: 0 <= k < 3 ==> s[20..23][k] == s[k + 20];
      assert forall k :: 0 <= k < 12 ==> s[24..36][k] == s[k + 24];
    }
    if UuidPattern(s) {
      forall k | 0 <= k < 36 ensures FitsAt(k, s[k]) {
        if k < 8 { assert s[k] == s[0..8][k]; }
        else if 9 <= k < 13 { assert s[k] == s[9..13][k - 9]; }
        else if 15 <= k < 18 { assert s[k] == s[15..18][k - 15]; }
        else if 20 <= k < 23 { assert s[k] == s[20..23][k - 20]; }
        else if 24 <= k { assert s[k] == s[24..36][k - 24]; }
      }
    }
  }

  const MsgUuidFormatPrefix := "Invalid "
  const MsgUuidFormatSuffix := " format"

  /** `validateUUID(paramName)`: checks one character at a time against the pattern. */
  method ValidateUuid(paramName: string, value: string) returns (r: Result<string>)
    ensures r.Ok? <==> UuidPattern(value)
    ensures r.Ok? ==> r.value == value
    ensures r.Err? ==> r == Invalid(MsgUuidFormatPrefix + paramName + MsgUuidFormatSuffix)
  {
    var ok := |value| == 36;
    var i := 0;
    while ok && i < 36
      invariant 0 <= i <= 36
      invariant ok ==> |value| == 36
      invariant ok <==> |value| == 36 && forall k :: 0 <= k < i ==> FitsAt(k, value[k])
    {
      ok := FitsAt(i, value[i]);
      i := i + 1;
    }
    if |value| == 36 {
      PatternByPosition(value);
    }
    if ok {
      r := Ok(value);
    } else {
      r := Invalid(MsgUuidFormatPrefix + paramName + MsgUuidFormatSuffix);
    }
  }

  /** The pattern is case-insensitive: lower-casing a string does not change whether it matches. */
  lemma UuidPatternIgnoresCase(s: string)
    ensures UuidPattern(s) <==> UuidPattern(AsciiLower(s))
  {
    if |s| == 36 {
      var l := AsciiLower(s);
      assert forall k :: 0 <= k < 36 ==> l[k] == AsciiLowerChar(s[k]);
      assert forall k :: 0 <= k < 36 ==> (FitsAt(k, s[k]) <==> FitsAt(k, l[k]));
      PatternByPosition(s);
      PatternByPosition(l);
    }
  }
}
